=== FILE: README.md ===
# dicer lexer engine — a Dafny model

This project models the engine state of the dicer lexer. That is the Python
`DcrLexer` together with the cursor (`DcrCursor`) and pending-text buffer
(`LexemBuffer`) it owns. It also models the value types the engine uses from
`schemes.py`: the `EOS`/`EOF`/`NULL` marker strings, `DcrToken`, the
test classification in `GuessRule`, and the name registry of `GuessBranch`.

Everything is a pure function over immutable datatypes:

- `Cursors.Cursor` is the line, the column and the history of final columns.
- `LexemBuffers.LexemBuffer` is the id, the start point, the current position and the text.
- `Lexer.LexerState` holds the backup stack (a `seq` of earlier states), the
  stage, the tokens, the trash slots, the cursor, the source buffer, the
  lexem buffer, `_state` and `_guess`.
- A Python exception becomes `PyCore.Result.Err` carrying the exception
  class. An operation that raises changes nothing, with two
  departures: the written `mark_end` and `burn_lxm_payload` mutate the
  lexer before they raise. They return a `Lexer.Attempt`, which carries the state left
  behind.
- A `deepcopy` snapshot becomes a plain value. `Lexer.Copyable` says when
  CPython's `deepcopy` can copy the state; the written `snapshot`, `guess`,
  `undo` and `unguess` raise `TypeError` otherwise.
- The class-wide id counter `LexemBuffer._prot` is a `seq<int>` threaded
  next to the state. Like the Python class attribute, `undo` does not
  restore it.

Notes on the code as written:

- `move_forward` reads the character under the cursor but never advances it.
- The default `preprocess` returns an empty list.
- A token's end can precede its start (`LexerProofs.TokenEndPrecedesStart`).
- Several statements raise in CPython where the code evidently means them to
  succeed (see "## Findings"). For each, the model has a member that raises
  as written and a corrected member, and the rest of the model builds on
  the corrected ones.

Module layout:

- `pycore.dfy`: exceptions, `Result`, `Option`, Python indexing.
- `cursor.dfy`: `DcrCursor`.
- `lexem_buffer.dfy`: `LexemBuffer` and its id counter.
- `sentinels.dfy`, `tokens.dfy`, `guessing.dfy`: `schemes.py`.
- `lexer.dfy`: `DcrLexer`.
- `lexer_proofs.dfy`: properties that relate several lexer operations.

## Model

| member | source | states |
|---|---|---|
| Cursors.Move | src/python/dicer/lexer.py:27-29 | the column grows by exactly \|steps\|; line and history are unchanged |
| Cursors.MoveAdvances | src/python/dicer/lexer.py:27-29 | `move` never goes back in row-major order, and goes strictly forward iff steps is not 0 |
| Cursors.LineBreak | src/python/dicer/lexer.py:31-37 | the pre-break column is appended to the history, the line grows by \|n\|, and the column becomes 0 when reset and stays unchanged otherwise |
| Cursors.LineBreakAdvances | src/python/dicer/lexer.py:31-37 | with n ≠ 0 the position strictly increases in row-major order; a resetting break with n = 0 moves the cursor backwards |
| Cursors.Call | src/python/dicer/lexer.py:22-25 | `__call__` as written: the flag has no effect, and the column changes by the signed step |
| Cursors.CallIntended | src/python/dicer/lexer.py:22-25 | the docstring's reading: one resetting line break when the flag is set, otherwise `move(steps)` |
| Cursors.CallIntendedAdvances | src/python/dicer/lexer.py:22-25 | the intended `__call__` never moves back, and moves forward whenever the flag is set or steps ≠ 0 |
| Cursors.CallAsWrittenDiffers | src/python/dicer/lexer.py:22-25 | concrete inputs where the written `__call__` moves backwards or ignores the requested break |
| Cursors.Last | src/python/dicer/lexer.py:53-59 | (line, col-1) when col > 0; (line-1, last history entry) at col ≤ 0; IndexError iff col ≤ 0 and the history is empty, because the `< 0` guard never fires |
| Cursors.LastIsPreviousPosition | src/python/dicer/lexer.py:53-59 | after one step or one resetting line break, `last()` is the position held before the advance |
| Cursors.LastIsBefore | src/python/dicer/lexer.py:53-59 | any position `last()` returns lies strictly before the cursor |
| Cursors.Len | src/python/dicer/lexer.py:77-84 | `len(cursor)` is \|history\| - 1 plus the sum of the history, and raises ValueError exactly when that count is negative |
| Cursors.LenAfterLineBreak | src/python/dicer/lexer.py:77-84 | each line break adds the column left plus one; moving within a line adds nothing |
| Cursors.FreshCursorHasNoLength | src/python/dicer/lexer.py:77-84 | a fresh cursor counts -1, so `len` raises on it; after one break from the origin it is 0 |
| Cursors.Tuple | src/python/dicer/lexer.py:77-88 | `tuple(cursor)` raises ValueError exactly when `len(cursor)` does (CPython's length hint), and otherwise yields (cursor[0], cursor[1]) |
| Cursors.TupleNeedsALineBreak | src/python/dicer/lexer.py:77-88 | a cursor with an empty history cannot be made a tuple; after a line break with no negative column recorded it always can |
| Cursors.GetItem | src/python/dicer/lexer.py:70-75 | index 0 gives the line, 1 the column, any other index None |
| Cursors.ForeignLineCol | src/python/dicer/lexer.py:90-98 | a two-element tuple/list or a cursor converts to its pair; any other length or kind raises ValueError |
| Cursors.Gt | src/python/dicer/lexer.py:100-102 | `__gt__` is the strict row-major "other before self" for convertible operands, and the ValueError propagates otherwise |
| Cursors.Eq | src/python/dicer/lexer.py:104-109 | `__eq__` holds iff the operand converts to exactly the cursor's pair; it answers False instead of raising |
| Cursors.St | src/python/dicer/lexer.py:111-113 | `__st__` is the strict row-major "self before other", with the ValueError propagated |
| Cursors.Lt | src/python/dicer/lexer.py:100-113 | `<` is not wired to `__st__`: it agrees with `__st__` only for a cursor operand and raises TypeError for a tuple or list |
| Cursors.Trichotomy | src/python/dicer/lexer.py:100-113 | for a convertible operand exactly one of gt, st and eq holds |
| Cursors.EqNeverRaises | src/python/dicer/lexer.py:100-113 | on an unconvertible operand eq is False while gt and st raise ValueError |
| Cursors.BeforeIsStrictOrder | src/python/dicer/lexer.py:100-113 | the reference row-major order is irreflexive, asymmetric, transitive and total |
| LexemBuffers.NextId | src/python/dicer/lexer.py:117-122 | `_id()` issues \|prot\|-1, which exceeds every earlier entry, and appends it; the counter keeps the form [-1, 0, 1, …] |
| LexemBuffers.InitialCounterWf | src/python/dicer/lexer.py:117 | the initial counter [-1] has that form, with nothing issued yet |
| LexemBuffers.NewBuffer | src/python/dicer/lexer.py:124-128 | a new buffer is empty, starts and stands at the given point, and takes a fresh id above every earlier one |
| LexemBuffers.ToBuf | src/python/dicer/lexer.py:137-138 | `tobuf` appends to the text and keeps id, start and current position |
| LexemBuffers.SetPos | src/python/dicer/lexer.py:144-145 | `setpos` changes only the current position |
| LexemBuffers.Update | src/python/dicer/lexer.py:147-149 | `update` appends and moves the current position, keeping id and start |
| LexemBuffers.UpdateIsToBufThenSetPos | src/python/dicer/lexer.py:137-149 | `update` equals `tobuf` then `setpos`, and two appends compose into one |
| Sentinels.MarkerEq | src/python/dicer/schemes.py:13-46 | a marker's `__eq__` holds iff the other value is the same marker, `EOS` or the text ";" |
| Sentinels.PyEq | src/python/dicer/schemes.py:13-50 | the `==` operator: the marker's `__eq__` decides whenever a marker is on either side; plain strings compare by text |
| Sentinels.MarkerEqualityQuirks | src/python/dicer/schemes.py:25-50 | `EOF` and `NULL` are not equal to their own text, but are equal to ";" and to `EOS`; marker equality is not symmetric |
| Sentinels.PyEqReflexive | src/python/dicer/schemes.py:13-50 | every value equals itself |
| Sentinels.EosEqualsItsText | src/python/dicer/schemes.py:13-23 | `EOS` equals a value iff that value's text is ";" |
| Tokens.MakeToken | src/python/dicer/schemes.py:59-71 | the token stores type, scope pair, idx and payload as given, with start/end the scope's components |
| Tokens.AccessorsSplitScope | src/python/dicer/schemes.py:73-89 | `start()` is (lstart, col_start) and `end()` is (lend, col_end) |
| Tokens.Range | src/python/dicer/schemes.py:92 | `range(lo, stop)` has max(0, stop-lo) entries, entry i being lo+i |
| Tokens.LRange | src/python/dicer/schemes.py:91-92 | `lrange()` has lend-lstart+1 entries when lend ≥ lstart (none otherwise), counting up from lstart |
| Tokens.LRangeMembership | src/python/dicer/schemes.py:91-92 | a line is in `lrange()` iff lstart ≤ line ≤ lend |
| Guessing.NewGuessRuleAsWritten | src/python/dicer/schemes.py:105-115 | as written, any test makes the constructor raise TypeError at `isinstance(t, LiteralString)`; only an empty rule is built |
| Guessing.NewGuessRule | src/python/dicer/schemes.py:95-115 | every test lands in the list of its kind, in order, with the four lengths summing to the number of tests; a test of another kind raises TypeError |
| Guessing.KindsPartition | src/python/dicer/schemes.py:105-115 | the four kind lists of well-kinded tests account for every test exactly once |
| Guessing.AsWrittenRefusesOneTest | src/python/dicer/schemes.py:105-115 | a one-test rule that the intended constructor sorts is refused by the written one |
| Guessing.RegName | src/python/dicer/schemes.py:131-137 | returns 1 and appends iff the name is non-empty and new; otherwise returns 0 and leaves the registry unchanged; the registry stays duplicate-free with no empty names |
| Guessing.RegNameIdempotent | src/python/dicer/schemes.py:131-137 | registering the same name again returns 0 and changes nothing |
| Guessing.Spell | src/python/dicer/schemes.py:128 | a draw from `choices(ALPHANUMS, k)` spells k characters, all from ALPHANUMS |
| Guessing.GetName | src/python/dicer/schemes.py:122-129 | a length below 1 is refused (the source's ValueError, `BadLength`); any returned name has the requested length, uses only ALPHANUMS whatever the selection source, is the first draw that is not registered (every earlier draw was), so `regname` accepts it with code 1; `Undecided` only when `regname` would refuse every draw |
| Guessing.GetDefaultName | src/python/dicer/schemes.py:119-129 | with the default length `NAME_LTTR_NUM` (8) `getname` never raises; a drawn name has 8 characters, and `regname` accepts it once and refuses it the second time |
| Lexer.Init | src/python/dicer/lexer.py:227-256 | an empty source raises ValueError; otherwise the state is at the origin with no tokens, trash or backups and one fresh empty buffer whose current position is its start |
| Lexer.Preprocess | src/python/dicer/lexer.py:151-222 | the default `preprocess` returns an empty list for every source and offset: every path through the loop ends in `continue`, `break` or the end of the body, and nothing is ever appended to `result` |
| Lexer.Position | src/python/dicer/lexer.py:259-263 | the intended `pos` is the pair of items `cursor[0]` and `cursor[1]`, the line and the column |
| Lexer.GetTokens | src/python/dicer/lexer.py:362-363 | `get_tokens()` returns a list of the same length holding the emitted tokens in the same order |
| Lexer.StateFlag | src/python/dicer/lexer.py:365-367 | the `state` getter is `bool` of the buffer text: true exactly when the text is not empty |
| Lexer.InitAsWritten | src/python/dicer/lexer.py:242-253 | as written, the constructor raises ValueError for every source: an empty one at line 243, any other one at `tuple(self._crsr)` on line 253 |
| Lexer.PositionAsWritten | src/python/dicer/lexer.py:259-263 | as written, `pos` raises ValueError exactly when the cursor's count is negative, and otherwise gives (line, col) |
| Lexer.SetState | src/python/dicer/lexer.py:365-371 | the setter writes `_state` only; the getter still reports whether the buffer holds text |
| Lexer.Snapshot | src/python/dicer/lexer.py:279-282 | pushes the pre-snapshot state and counts one more stage; `stage == \|backup\|` is preserved |
| Lexer.SnapshotAsWritten | src/python/dicer/lexer.py:279-282 | as written, `deepcopy(self)` raises TypeError, changing nothing, iff the state or a snapshot holds a token or the source buffer holds EOS/EOF/NULL; otherwise it is the intended snapshot |
| Lexer.GetBackup | src/python/dicer/lexer.py:284-291 | strict and \|k\| > stage raises IndexError; non-strict then returns backup[0] (IndexError at stage 0); otherwise backup[-\|k\|], so k = 0 gives backup[0] |
| Lexer.WfBackups | src/python/dicer/lexer.py:279-299 | every snapshot of a consistent state is itself consistent |
| Lexer.Undo | src/python/dicer/lexer.py:293-299 | stage 0 raises IndexError; otherwise the result is exactly `get_backup(backsteps, strict)` (so `undo(0)` gives the oldest snapshot and a strict overflow raises), the state becoming that snapshot with its own earlier stage and backup stack |
| Lexer.UndoAsWritten | src/python/dicer/lexer.py:293-299 | as written, `undo` fails as the intended one does, and also raises TypeError when the chosen snapshot cannot be deep-copied; otherwise it agrees with the intended one |
| Lexer.Guess | src/python/dicer/lexer.py:269-273 | raises PermissionError while a guess is set; otherwise pushes the current state, counts one more stage and records the guess, and everything else (tokens, trash, cursor, source, buffer, `_state`) is kept |
| Lexer.GuessAsWritten | src/python/dicer/lexer.py:269-273 | as written, PermissionError while a guess is set, else TypeError when the state cannot be deep-copied, else the intended guess |
| Lexer.Unguess | src/python/dicer/lexer.py:275-277 | restores the latest snapshot with the guess cleared; stage 0 raises |
| Lexer.UnguessAsWritten | src/python/dicer/lexer.py:275-277 | as written, succeeds iff the written `undo()` does, and then agrees with the intended `unguess`; a failure raises exactly what the written `undo()` raised (IndexError, or TypeError from `deepcopy`) |
| Lexer.AppendToLastSlot | src/python/dicer/lexer.py:337 | `trash[-1] += arg` raises IndexError on empty trash; otherwise only the last slot changes, growing by arg |
| Lexer.ToBuf | src/python/dicer/lexer.py:326-329 | appends to the buffer text only; the buffer's id, start and current position and the rest of the lexer are kept |
| Lexer.Totrash | src/python/dicer/lexer.py:331-337 | with new_elem, arg becomes a new slot of its own; otherwise it is appended to the last slot, earlier slots unchanged; IndexError iff there is no slot to append to |
| Lexer.BurnLxmPayload | src/python/dicer/lexer.py:301-308 | the pending text goes to a new slot when the flag is set and onto the last slot otherwise (IndexError iff there is none); trash text plus buffer text is preserved, and an empty buffer with a fresh id starts and stands at the cursor; nothing else changes |
| Lexer.BurnLxmPayloadAsWritten | src/python/dicer/lexer.py:301-308 | as written: IndexError with no change when there is no slot; ValueError iff the cursor's count is negative, after the text has been added to the trash but with the old buffer kept; otherwise the intended burn |
| Lexer.MarkEnd | src/python/dicer/lexer.py:310-323 | appends exactly the token (t, (buffer start, last()), buffer id, buffer text) and returns it; clears guess and state; opens a fresh buffer starting and standing at the cursor, and one empty trash slot; nothing else changes (cursor, source, backups, stage) |
| Lexer.MarkEndAsWritten | src/python/dicer/lexer.py:310-323 | as written: IndexError with no change when `last()` raises; ValueError iff the cursor's count is negative, after the token is appended and guess/state cleared but with buffer, trash and counter untouched; otherwise the intended `mark_end` |
| Lexer.Lookahead | src/python/dicer/lexer.py:353-360 | an `EOF`/`NULL` line is returned as is; for a text line it succeeds iff the column indexes the line, giving that one character; no line raises IndexError |
| Lexer.LookaheadAsWritten | src/python/dicer/lexer.py:353-360 | as written, every lookahead that finds a line raises NameError on the undefined `Eof`/`Null` |
| Lexer.MoveForward | src/python/dicer/lexer.py:340-351 | no line under the cursor raises IndexError and an end marker raises EOFError; with skip set and no trash slot, `trash[-1] += ch` raises IndexError; no other exception is raised; otherwise the looked-ahead character goes to the buffer (skip false) or onto the last trash slot with earlier slots unchanged (skip true); the buffer's id, start and current position are kept and the cursor never moves |
| LexerProofs.SnapshotUndoRoundTrip | src/python/dicer/lexer.py:279-299 | `undo()` right after `snapshot()` yields the pre-snapshot state, stage and backup stack included |
| LexerProofs.GuessUnguessRoundTrip | src/python/dicer/lexer.py:269-277 | `guess` then `unguess` restores the pre-guess state; a second `guess` raises |
| LexerProofs.UndoDiscardsWork | src/python/dicer/lexer.py:279-299 | any work after a snapshot that leaves the history alone is discarded by one `undo()` |
| LexerProofs.AsWrittenRoundTrips | src/python/dicer/lexer.py:269-299 | for a state `deepcopy` can copy, the written snapshot/undo and guess/unguess round trips give back the state |
| LexerProofs.SnapshotRefusedOnceTokenExists | src/python/dicer/lexer.py:279-323 | after a successful `mark_end`, the written `snapshot` and `guess` raise TypeError while the intended `guess` succeeds |
| LexerProofs.SnapshotRefusedWithEndMarker | src/python/dicer/lexer.py:269-282 | a source buffer holding any EOS/EOF/NULL makes the written `snapshot`, and `guess` with any rule, raise TypeError |
| LexerProofs.UndoAfterSnapshots | src/python/dicer/lexer.py:279-299 | after k snapshots, `undo(k)` and `undo(-k)` return to the start; one step further raises when strict and gives backup[0] otherwise |
| LexerProofs.UndoZeroIsOldest | src/python/dicer/lexer.py:284-299 | `undo(0)` returns the oldest snapshot, not the latest one |
| LexerProofs.OperationsKeepWf | src/python/dicer/lexer.py:269-351 | mark_end, burn, move_forward, guess, undo and unguess keep stage == \|backup\| and the snapshot chain consistent |
| LexerProofs.IdsBelowMonotone | src/python/dicer/lexer.py:117-122 | a bound on all ids of a state survives a larger bound |
| LexerProofs.MarkEndKeepsIdsFresh | src/python/dicer/lexer.py:310-323 | after `mark_end` all ids stay below the counter and the new token's idx exceeds every earlier token's |
| LexerProofs.BurnKeepsIdsFresh | src/python/dicer/lexer.py:301-308 | after burning, all ids stay below the counter |
| LexerProofs.OtherOperationsKeepIds | src/python/dicer/lexer.py:269-351 | snapshot, undo, guess and move_forward keep every id within its bound |
| LexerProofs.MoveForwardKeepsIds | src/python/dicer/lexer.py:340-351 | `move_forward` leaves the tokens, the snapshots and the buffer id alone, so the id bound survives it |
| LexerProofs.UndoNeverReusesIds | src/python/dicer/lexer.py:293-323 | after `undo`, the buffer `mark_end` opens has an id above every id the pre-undo state held, snapshots included |
| LexerProofs.MarkEndKeepsText | src/python/dicer/lexer.py:310-323 | `mark_end` moves the pending text into the new payload; payloads, trash and buffer together keep the same characters |
| LexerProofs.BurnKeepsText | src/python/dicer/lexer.py:301-308 | burning leaves payloads + trash + buffer unchanged |
| LexerProofs.MoveForwardAddsOneChar | src/python/dicer/lexer.py:340-351 | a successful `move_forward` adds exactly the looked-ahead character to the held text |
| LexerProofs.MoveForwardRereads | src/python/dicer/lexer.py:340-351 | since the cursor stays put, two `move_forward(False)` calls buffer the same character twice |
| LexerProofs.MoveForwardKeepsAnchor | src/python/dicer/lexer.py:340-351 | reading characters keeps the buffer's start at the cursor |
| LexerProofs.StateFlagFollowsBuffer | src/python/dicer/lexer.py:365-367 | the `state` getter is true after a buffered character and false after `mark_end` |
| LexerProofs.TokenEndPrecedesStart | src/python/dicer/lexer.py:310-323 | for a buffer opened at the cursor, the emitted token's end is strictly before its start |
| LexerProofs.BurnAsWrittenDuplicatesText | src/python/dicer/lexer.py:301-308 | as written, a burn on a cursor with no line break raises ValueError with the pending text held twice, in the trash and in the buffer |
| LexerProofs.MarkEndAsWrittenKeepsTokenAndText | src/python/dicer/lexer.py:310-323 | as written, `mark_end` on a cursor moved along its first line raises ValueError after appending the token, and the pending text stays in the buffer as well |
| LexerProofs.InitAsWrittenAlwaysRaises | src/python/dicer/lexer.py:242-253 | the written constructor raises ValueError for every input, while the intended one accepts every non-empty source |
| LexerProofs.DefaultPreprocessLeavesNothing | src/python/dicer/lexer.py:181-253 | with the default `preprocess` the source buffer is empty, so after the intended construction the first lookahead and move_forward raise IndexError; the written construction already raises ValueError |
| LexerProofs.LookaheadAsWrittenDiffers | src/python/dicer/lexer.py:344-360 | on an `EOF` line the written lookahead raises NameError, while the intended one returns `EOF` and move_forward raises EOFError |
| LexerProofs.LookaheadErrorsAgree | src/python/dicer/lexer.py:353-360 | the two lookaheads agree when there is no line; otherwise only the written one raises NameError |

## Findings

| source | as written | input that shows it | evidently intended | confidence | as-written member | corrected member |
|---|---|---|---|---|---|---|
| src/python/dicer/schemes.py:105-115 | `isinstance(t, LiteralString)` is the first test, and `typing.LiteralString` raises TypeError under `isinstance`, so any test makes `GuessRule` raise | `GuessRule("<")` (`Guessing.AsWrittenRefusesOneTest`) | each test is appended to the list of its kind (`Guessing.KindsPartition`) | high that it raises; not executed | Guessing.NewGuessRuleAsWritten | Guessing.NewGuessRule |
| src/python/dicer/lexer.py:353-360 | `isinstance(line, Eof\|Null)` names classes that are never defined (the module defines `eof` and `null`), so it raises NameError | source buffer `[EOF]` at the origin (`LexerProofs.LookaheadAsWrittenDiffers`) | test against the `eof`/`null` marker classes | high; not executed | Lexer.LookaheadAsWritten | Lexer.Lookahead |
| src/python/dicer/lexer.py:242-253 | `tuple(self._crsr)` makes CPython ask `__len__` for a size hint; on the fresh cursor `__len__` returns -1, so `len`'s ValueError propagates and every `DcrLexer(src)` raises | `DcrLexer("a;")` (`LexerProofs.InitAsWrittenAlwaysRaises`) | the first buffer starts at (0, 0) | high for CPython 3.11 and 3.12; not executed | Lexer.InitAsWritten | Lexer.Init |
| src/python/dicer/lexer.py:310-323 | the same conversion at line 321 raises after the token is appended and guess/state are cleared, leaving its text in the old buffer too | a cursor moved along line 0 with no line break (`LexerProofs.MarkEndAsWrittenKeepsTokenAndText`) | a fresh buffer at the cursor and a new trash slot | high for CPython 3.11 and 3.12; not executed | Lexer.MarkEndAsWritten | Lexer.MarkEnd |
| src/python/dicer/lexer.py:301-308 | the same conversion at line 308 raises after the pending text was added to the trash, so the text is held twice | any state whose cursor has not broken a line (`LexerProofs.BurnAsWrittenDuplicatesText`) | the text moves to the trash and a fresh buffer starts | high for CPython 3.11 and 3.12; not executed | Lexer.BurnLxmPayloadAsWritten | Lexer.BurnLxmPayload |
| src/python/dicer/lexer.py:279-282 | `deepcopy(self)` rebuilds a `DcrToken` through a `__new__` that requires arguments it does not pass, and an `eos`/`eof`/`null` string through a `__new__` that accepts no text; both raise TypeError, so `snapshot` and `guess` fail once a token exists or the source buffer holds a marker | one `mark_end`, then `guess(g)` (`LexerProofs.SnapshotRefusedOnceTokenExists`) | a copy of the state is pushed | high; not executed | Lexer.SnapshotAsWritten | Lexer.Snapshot |
| src/python/dicer/lexer.py:22-25 | `__call__` ignores its `linebreak` flag and adds the signed step, so a negative step moves the "one directional" cursor back | cursor (0, 5): `cursor(False, -3)` gives (0, 2) and `cursor(True, 1)` gives (0, 6) (`Cursors.CallAsWrittenDiffers`) | `linebreak(True, 1)` when the flag is set, otherwise `move(steps)` (`Cursors.CallIntendedAdvances`) | medium; not executed | Cursors.Call | Cursors.CallIntended |

`Lexer.MoveForward` uses the corrected `Lexer.Lookahead`. `Lexer.Guess`
and the round-trip lemmas use the corrected `Lexer.Snapshot`. The written
`guess`, `undo` and `unguess` are `Lexer.GuessAsWritten`,
`Lexer.UndoAsWritten` and `Lexer.UnguessAsWritten`. Nothing else calls
`__call__` or `GuessRule`.

## Left out

- The `scan` driver (lexer.py:375-394) is left out. It never advances the cursor, so it does not terminate on general input, and it prints.
- The regex filtering of `preprocess` is left out. It depends on Python's `re` engine and, as written, never adds a line to its result. `Lexer.Preprocess` models only the empty return value.
- `Lexer.Init` takes the result of the `func` preprocessing callback as the argument `srcBuf` rather than calling it.
- `DcrCursor.float`, the float branch of `_foreign_line_col` and `__str__` are left out: they are float and string formatting/parsing.
- `_foreign_line_col` converts list items with `int()`. The model takes integer items only.
- `guess_state` is left out: it reads an attribute that is never set.
- The `isinstance(self._crsr, DcrCursor)` check in `pos` always passes in the model. Because the model has no mutable lists, the copy `get_tokens` makes is the same value as the token list.
- Lexer.Position: gives the cursor's (line, col) as intended; the ValueError the written `pos` raises is `Lexer.PositionAsWritten`.
- Lexer.Init: starts the first buffer at (0, 0); the ValueError that `tuple(self._crsr)` raises in CPython 3.11 and 3.12 is `Lexer.InitAsWritten`.
- Lexer.MarkEnd: always completes once `last()` succeeds; the ValueError and partial update of the written code is `Lexer.MarkEndAsWritten`.
- Lexer.BurnLxmPayload: always completes when there is a slot; the ValueError and partial update of the written code is `Lexer.BurnLxmPayloadAsWritten`.
- Lexer.Snapshot: copies any state; the TypeError `deepcopy` raises on an uncopyable state is `Lexer.SnapshotAsWritten`.
- Lexer.Guess: snapshots through the intended `Lexer.Snapshot`; the written TypeError is `Lexer.GuessAsWritten`.
- Lexer.Undo: restores any snapshot; the written TypeError on an uncopyable snapshot is `Lexer.UndoAsWritten`, and `Lexer.Unguess` likewise has `Lexer.UnguessAsWritten`.
- LexerProofs.GuessUnguessRoundTrip: is about the intended snapshot. As written, `guess` raises TypeError once a token exists or the source holds a marker (`LexerProofs.SnapshotRefusedOnceTokenExists`), and the round trip holds for copyable states (`LexerProofs.AsWrittenRoundTrips`).
- LexerProofs.SnapshotUndoRoundTrip: is about the intended snapshot; its written counterpart for copyable states is in `LexerProofs.AsWrittenRoundTrips`.
- LexerProofs.DefaultPreprocessLeavesNothing: its lookahead clauses are about the intended constructor; the same lemma states that the written one raises ValueError.
- The `!=` operator on the marker strings is left out: the marker classes define only `__eq__`.
- Guessing.GetName: the random draws are an argument. If every supplied draw is already registered, it reports `Undecided` where the source would keep drawing forever.
- `GuessBranch.__init__`, `GuessTree`, `io_ops.py`, `__init__.py`, `parser.py`, `functions.py`, `legacy/` and the C sources are not part of this model. They hold no executable logic or are I/O.
- The module-level import failures are not modelled. `schemes.py` does not parse (`GuessBranch.__init__` and `GuessTree` are incomplete), and the return annotation on lexer.py:353 already names the undefined `Eof`. The model describes the code as if it loaded.

=== FILE: cursor.dfy ===
/** `DcrCursor`: a line/column position that is only ever pushed forward,
    together with the final column of every line it has already left. */
module Cursors {
  import opened PyCore

  /** The source's `Point`: a (line, column) pair. */
  type Point = (int, int)

  datatype Cursor = Cursor(line: int, col: int, hist: seq<int>)

  /** A freshly created cursor: line 0, column 0, empty history. */
  const Origin: Cursor := Cursor(0, 0, [])

  /** `tuple(cursor)`, which iterates line then column. */
  function Pos(c: Cursor): Point {
    (c.line, c.col)
  }

  /** Strict row-major order on points: the reference against which the
      cursor's comparisons are checked. */
  predicate Before(p: Point, q: Point) {
    p.0 < q.0 || (p.0 == q.0 && p.1 < q.1)
  }

  lemma BeforeIsStrictOrder(p: Point, q: Point, s: Point)
    ensures !Before(p, p)
    ensures Before(p, q) ==> !Before(q, p)
    ensures Before(p, q) && Before(q, s) ==> Before(p, s)
    ensures p == q || Before(p, q) || Before(q, p)
  {
  }

  // ---------------------------------------------------------------------------
  // Movement

  /** `move(steps)`: the column grows by `|steps|`. */
  function Move(c: Cursor, steps: int): (r: Cursor)
    ensures r.line == c.line && r.hist == c.hist
    ensures r.col - c.col == Abs(steps)
  {
    c.(col := c.col + Abs(steps))
  }

  /** `linebreak(reset_column, num_of_breaks)`: records the column being left,
      moves down `|num_of_breaks|` lines and optionally returns to column 0. */
  function LineBreak(c: Cursor, resetColumn: bool, breaks: int): (r: Cursor)
    ensures r.hist == c.hist + [c.col]
    ensures r.line - c.line == Abs(breaks)
    ensures resetColumn ==> r.col == 0
    ensures !resetColumn ==> r.col == c.col
  {
    Cursor(c.line + Abs(breaks), if resetColumn then 0 else c.col, c.hist + [c.col])
  }

  /** `cursor(linebreak, steps)` as written: the flag is ignored and `steps`
      is added to the column without taking its absolute value. */
  function Call(c: Cursor, linebreak: bool, steps: int): (r: Cursor)
    ensures r.line == c.line && r.hist == c.hist
    ensures r.col - c.col == steps
  {
    c.(col := c.col + steps)
  }

  /** What the docstring of `__call__` describes: a single resetting line
      break when the flag is set, otherwise `move(steps)`. */
  function CallIntended(c: Cursor, linebreak: bool, steps: int): (r: Cursor)
    ensures linebreak ==> r == LineBreak(c, true, 1)
    ensures !linebreak ==> r == Move(c, steps)
  {
    if linebreak then LineBreak(c, true, 1) else Move(c, steps)
  }

  /** Moving never goes back; it goes strictly forward unless `steps` is 0. */
  lemma MoveAdvances(c: Cursor, steps: int)
    ensures !Before(Pos(Move(c, steps)), Pos(c))
    ensures Before(Pos(c), Pos(Move(c, steps))) <==> steps != 0
  {
  }

  /** A line break with at least one break is a strict row-major advance;
      with zero breaks and a reset it moves the cursor back to column 0. */
  lemma LineBreakAdvances(c: Cursor, resetColumn: bool, breaks: int)
    ensures breaks != 0 ==> Before(Pos(c), Pos(LineBreak(c, resetColumn, breaks)))
    ensures breaks == 0 && resetColumn && c.col > 0 ==> Before(Pos(LineBreak(c, resetColumn, breaks)), Pos(c))
  {
  }

  /** The intended `__call__` never moves the cursor back, and moves it
      forward whenever the flag is set or `steps` is not 0. */
  lemma CallIntendedAdvances(c: Cursor, linebreak: bool, steps: int)
    ensures !Before(Pos(CallIntended(c, linebreak, steps)), Pos(c))
    ensures linebreak || steps != 0 ==> Before(Pos(c), Pos(CallIntended(c, linebreak, steps)))
  {
  }

  /** The `__call__` as written moves the cursor backwards on a negative
      step and ignores a requested line break. */
  lemma CallAsWrittenDiffers()
    ensures Call(Cursor(0, 5, []), false, -3) == Cursor(0, 2, [])
    ensures Before(Pos(Call(Cursor(0, 5, []), false, -3)), (0, 5))
    ensures Call(Cursor(0, 5, []), true, 1) == Cursor(0, 6, [])
    ensures CallIntended(Cursor(0, 5, []), true, 1) == Cursor(1, 0, [5])
  {
  }

  // ---------------------------------------------------------------------------
  // Position of the last consumed character

  /** `last()`: one column back on the current line, or, at column 0, the
      recorded final column of the previous line. The source's fallback for
      `len(history) < 0` can never apply, so at column 0 with an empty history
      `history[-1]` raises `IndexError`. */
  function Last(c: Cursor): (r: Result<Point>)
    ensures c.col > 0 ==> r == Ok((c.line, c.col - 1))
    ensures c.col <= 0 && c.hist != [] ==> r == Ok((c.line - 1, c.hist[|c.hist| - 1]))
    ensures r.Err? <==> c.col <= 0 && c.hist == []
    ensures r.Err? ==> r.exc == IndexError
  {
    if c.col > 0 then Ok((c.line, c.col - 1))
    else
      var h :- Index(c.hist, -1);
      Ok((c.line - 1, h))
  }

  /** After one step forward, or after a single resetting line break,
      `last()` is the position the cursor had before that advance. */
  lemma LastIsPreviousPosition(c: Cursor)
    requires c.col >= 0
    ensures Last(Move(c, 1)) == Ok(Pos(c))
    ensures Last(LineBreak(c, true, 1)) == Ok(Pos(c))
  {
  }

  /** Whatever `last()` answers lies strictly before the cursor. */
  lemma LastIsBefore(c: Cursor)
    ensures Last(c).Ok? ==> Before(Last(c).value, Pos(c))
  {
  }

  // ---------------------------------------------------------------------------
  // Length

  function Sum(xs: seq<int>): int {
    if xs == [] then 0 else xs[0] + Sum(xs[1..])
  }

  lemma {:induction false} SumAppend(xs: seq<int>, x: int)
    ensures Sum(xs + [x]) == Sum(xs) + x
  {
    if xs == [] {
      assert xs + [x] == [x];
      assert [x][1..] == [];
    } else {
      assert (xs + [x])[1..] == xs[1..] + [x];
      SumAppend(xs[1..], x);
    }
  }

  /** The count `__len__` computes: one less than the number of recorded
      lines plus the sum of their final columns. */
  function Steps(c: Cursor): int {
    |c.hist| - 1 + Sum(c.hist)
  }

  /** `len(cursor)`: Python's `len` raises `ValueError` when `__len__`
      returns a negative count. */
  function Len(c: Cursor): (r: Result<nat>)
    ensures r.Ok? <==> Steps(c) >= 0
    ensures r.Ok? ==> r.value == Steps(c)
    ensures r.Err? ==> r.exc == ValueError
  {
    var n := Steps(c);
    if n < 0 then Err(ValueError) else Ok(n)
  }

  /** Each line break adds the column being left plus one to the count; the
      current line's column is never counted. */
  lemma LenAfterLineBreak(c: Cursor, resetColumn: bool, breaks: int)
    ensures Steps(LineBreak(c, resetColumn, breaks)) == Steps(c) + c.col + 1
    ensures Steps(Move(c, breaks)) == Steps(c)
  {
    SumAppend(c.hist, c.col);
  }

  lemma {:induction false} SumNonNegative(xs: seq<int>)
    requires forall i :: 0 <= i < |xs| ==> xs[i] >= 0
    ensures Sum(xs) >= 0
  {
    if xs != [] {
      assert forall i :: 0 <= i < |xs[1..]| ==> xs[1..][i] == xs[i + 1];
      SumNonNegative(xs[1..]);
      assert xs[0] >= 0;
    }
  }

  /** `tuple(cursor)`: before iterating, CPython's `tuple()` asks `__len__`
      for a size hint, and a negative `__len__` makes that request raise
      `ValueError`; otherwise the iteration yields line, then column. */
  function Tuple(c: Cursor): (r: Result<Point>)
    ensures r.Err? <==> Len(c).Err?
    ensures r.Err? ==> r.exc == ValueError
    ensures r.Ok? ==> r.value == (GetItem(c, 0).value, GetItem(c, 1).value)
  {
    if Len(c).Err? then Err(ValueError) else Ok(Pos(c))
  }

  /** Until the cursor has broken a line its count is -1, so it cannot be
      turned into a tuple; once it has, with no negative column recorded,
      it always can. */
  lemma TupleNeedsALineBreak(c: Cursor)
    ensures c.hist == [] ==> Tuple(c) == Err(ValueError)
    ensures c.hist != [] && (forall i :: 0 <= i < |c.hist| ==> c.hist[i] >= 0) ==> Tuple(c) == Ok(Pos(c))
  {
    if c.hist != [] && (forall i :: 0 <= i < |c.hist| ==> c.hist[i] >= 0) {
      SumNonNegative(c.hist);
    }
  }

  /** A fresh cursor reports -1, so `len` on it raises. */
  lemma FreshCursorHasNoLength()
    ensures Len(Origin) == Err(ValueError)
    ensures Len(LineBreak(Origin, true, 1)) == Ok(0)
  {
    LenAfterLineBreak(Origin, true, 1);
  }

  // ---------------------------------------------------------------------------
  // Indexing and comparison

  /** `cursor[i]`: 0 gives the line, 1 the column, anything else `None`. */
  function GetItem(c: Cursor, i: int): (r: Option<int>)
    ensures r.Some? <==> i == 0 || i == 1
    ensures r.Some? ==> r.value == (if i == 0 then Pos(c).0 else Pos(c).1)
  {
    if i == 0 then Some(c.line)
    else if i == 1 then Some(c.col)
    else None
  }

  /** The right-hand operand of a comparison: a tuple or list of integers, a
      cursor, or anything else (floats are not modelled). */
  datatype Operand = Items(items: seq<int>) | OfCursor(cursor: Cursor) | Unsupported

  /** `_foreign_line_col`: unpacks a two-element tuple, list or cursor;
      unpacking any other length, or any other kind of value, raises
      `ValueError`. */
  function ForeignLineCol(arg: Operand): (r: Result<Point>)
    ensures r.Ok? <==> arg.OfCursor? || (arg.Items? && |arg.items| == 2)
    ensures arg.OfCursor? ==> r == Ok(Pos(arg.cursor))
    ensures r.Ok? && arg.Items? ==> r.value.0 == arg.items[0] && r.value.1 == arg.items[1]
    ensures r.Err? ==> r.exc == ValueError
  {
    match arg
    case Items(xs) => if |xs| == 2 then Ok((xs[0], xs[1])) else Err(ValueError)
    case OfCursor(d) => Ok((d.line, d.col))
    case Unsupported => Err(ValueError)
  }

  /** `cursor.__gt__(other)`: the conversion error propagates. */
  function Gt(c: Cursor, other: Operand): (r: Result<bool>)
    ensures r.Ok? <==> ForeignLineCol(other).Ok?
    ensures r.Ok? ==> (r.value <==> Before(ForeignLineCol(other).value, Pos(c)))
    ensures r.Err? ==> r.exc == ValueError
  {
    var p :- ForeignLineCol(other);
    Ok(c.line > p.0 || (c.col > p.1 && c.line == p.0))
  }

  /** `cursor.__eq__(other)`: any conversion error yields `False`. */
  function Eq(c: Cursor, other: Operand): (r: bool)
    ensures r <==> ForeignLineCol(other) == Ok(Pos(c))
  {
    match ForeignLineCol(other)
    case Ok(p) => c.line == p.0 && c.col == p.1
    case Err(_) => false
  }

  /** `cursor.__st__(other)`: a plain method, not the `<` operator. */
  function St(c: Cursor, other: Operand): (r: Result<bool>)
    ensures r.Ok? <==> ForeignLineCol(other).Ok?
    ensures r.Ok? ==> (r.value <==> Before(Pos(c), ForeignLineCol(other).value))
    ensures r.Err? ==> r.exc == ValueError
  {
    var p :- ForeignLineCol(other);
    Ok(c.line < p.0 || (c.col < p.1 && c.line == p.0))
  }

  /** `cursor < other`: the class defines no `__lt__`, so Python tries the
      reflected `other > cursor`, which only a cursor answers; for a tuple or
      list both sides decline and `TypeError` is raised. */
  function Lt(c: Cursor, other: Operand): (r: Result<bool>)
    ensures other.OfCursor? ==> r == St(c, other)
    ensures !other.OfCursor? ==> r == Err(TypeError)
  {
    match other
    case OfCursor(d) => Gt(d, OfCursor(c))
    case _ => Err(TypeError)
  }

  /** For a convertible operand exactly one of `>`, `__st__` and `==` holds. */
  lemma Trichotomy(c: Cursor, other: Operand)
    requires ForeignLineCol(other).Ok?
    ensures Gt(c, other).Ok? && St(c, other).Ok?
    ensures Gt(c, other).value || St(c, other).value || Eq(c, other)
    ensures !(Gt(c, other).value && St(c, other).value)
    ensures !(Gt(c, other).value && Eq(c, other))
    ensures !(St(c, other).value && Eq(c, other))
  {
  }

  /** `__eq__` swallows the error that `__gt__` and `__st__` raise. */
  lemma EqNeverRaises(c: Cursor, other: Operand)
    requires ForeignLineCol(other).Err?
    ensures !Eq(c, other)
    ensures Gt(c, other) == Err(ValueError) && St(c, other) == Err(ValueError)
  {
  }
}

=== FILE: guessing.dfy ===
/** `GuessRule`, which sorts its tests by kind, and the name registry of
    `GuessBranch`. */
module Guessing {
  import opened PyCore

  /** A test handed to `GuessRule`. Python cannot tell a literal string from
      any other string at run time, so the kind the caller meant is recorded
      in the constructor; predicates are represented by a name. */
  datatype GuessTest =
    | PatternTest(pattern: string)
    | CompareTest(text: string)
    | UnaryTest(fname: string)
    | PairTest(fname: string, names: seq<string>)
    | OtherTest(repr: string)

  datatype Kind = Pattern | Compare | Unary | Pair

  function KindOf(t: GuessTest): Option<Kind> {
    match t
    case PatternTest(_) => Some(Pattern)
    case CompareTest(_) => Some(Compare)
    case UnaryTest(_) => Some(Unary)
    case PairTest(_, _) => Some(Pair)
    case OtherTest(_) => None
  }

  /** The tests of kind `k`, in their original order. */
  function OfKind(ts: seq<GuessTest>, k: Kind): seq<GuessTest> {
    if ts == [] then []
    else OfKind(ts[..|ts| - 1], k) + (if KindOf(ts[|ts| - 1]) == Some(k) then [ts[|ts| - 1]] else [])
  }

  predicate AllSupported(ts: seq<GuessTest>) {
    forall i :: 0 <= i < |ts| ==> KindOf(ts[i]).Some?
  }

  /** The four lists: `_tcomps`, `_tpttrns`, `_t1funcs`, `_t2funcs`. */
  datatype GuessRule = GuessRule(comps: seq<GuessTest>, pttrns: seq<GuessTest>, funcs1: seq<GuessTest>, funcs2: seq<GuessTest>)

  const EmptyRule := GuessRule([], [], [], [])

  /** `GuessRule(*tests)` as written: its first check is
      `isinstance(t, LiteralString)`, and `typing.LiteralString` refuses
      `isinstance` with `TypeError`, so any test at all makes it raise. */
  function NewGuessRuleAsWritten(tests: seq<GuessTest>): (r: Result<GuessRule>)
    ensures r.Ok? <==> tests == []
    ensures r.Ok? ==> r.value == EmptyRule
    ensures r.Err? ==> r.exc == TypeError
  {
    if tests == [] then Ok(EmptyRule) else Err(TypeError)
  }

  /** `GuessRule(*tests)` as evidently intended: each test is appended to the
      list of its kind, and a test of no known kind raises `TypeError`. */
  method NewGuessRule(tests: seq<GuessTest>) returns (r: Result<GuessRule>)
    ensures r.Ok? <==> AllSupported(tests)
    ensures r.Err? ==> r.exc == TypeError
    ensures r.Ok? ==> r.value.pttrns == OfKind(tests, Pattern) && r.value.comps == OfKind(tests, Compare)
    ensures r.Ok? ==> r.value.funcs1 == OfKind(tests, Unary) && r.value.funcs2 == OfKind(tests, Pair)
    ensures r.Ok? ==> |r.value.comps| + |r.value.pttrns| + |r.value.funcs1| + |r.value.funcs2| == |tests|
  {
    var comps, pttrns, funcs1, funcs2 := [], [], [], [];
    var i := 0;
    while i < |tests|
      invariant 0 <= i <= |tests|
      invariant AllSupported(tests[..i])
      invariant pttrns == OfKind(tests[..i], Pattern) && comps == OfKind(tests[..i], Compare)
      invariant funcs1 == OfKind(tests[..i], Unary) && funcs2 == OfKind(tests[..i], Pair)
      invariant |comps| + |pttrns| + |funcs1| + |funcs2| == i
    {
      var t := tests[i];
      assert tests[..i + 1][..i] == tests[..i];
      match t {
        case PatternTest(_) => pttrns := pttrns + [t];
        case CompareTest(_) => comps := comps + [t];
        case UnaryTest(_) => funcs1 := funcs1 + [t];
        case PairTest(_, _) => funcs2 := funcs2 + [t];
        case OtherTest(_) =>
          assert !AllSupported(tests) by {
            assert KindOf(tests[i]).None?;
          }
          return Err(TypeError);
      }
      i := i + 1;
    }
    assert tests[..i] == tests;
    return Ok(GuessRule(comps, pttrns, funcs1, funcs2));
  }

  /** The four kind lists of well-kinded tests add up to all of them. */
  lemma {:induction false} KindsPartition(ts: seq<GuessTest>)
    requires AllSupported(ts)
    ensures |OfKind(ts, Pattern)| + |OfKind(ts, Compare)| + |OfKind(ts, Unary)| + |OfKind(ts, Pair)| == |ts|
  {
    if ts != [] {
      var init := ts[..|ts| - 1];
      assert AllSupported(init) by {
        forall i | 0 <= i < |init|
          ensures KindOf(init[i]).Some?
        {
          assert init[i] == ts[i];
        }
      }
      KindsPartition(init);
      assert KindOf(ts[|ts| - 1]).Some?;
    }
  }

  /** The corrected constructor accepts what the written one refuses. */
  lemma AsWrittenRefusesOneTest()
    ensures NewGuessRuleAsWritten([CompareTest("<")]) == Err(TypeError)
    ensures AllSupported([CompareTest("<")])
    ensures OfKind([CompareTest("<")], Compare) == [CompareTest("<")]
  {
    assert [CompareTest("<")][..0] == [];
  }

  // ---------------------------------------------------------------------------
  // GuessBranch name registry

  /** The class attribute `GuessBranch._reg`. */
  type Registry = seq<string>

  /** No empty names and no name twice. */
  predicate RegistryWf(reg: Registry) {
    && (forall i :: 0 <= i < |reg| ==> |reg[i]| >= 1)
    && (forall i, j :: 0 <= i < j < |reg| ==> reg[i] != reg[j])
  }

  datatype Registered = Registered(code: int, reg: Registry)

  /** `regname(name)`: refuses (0) an empty or known name and leaves the
      registry alone; otherwise appends the name and answers 1. */
  function RegName(reg: Registry, name: string): (r: Registered)
    ensures r.code == 0 || r.code == 1
    ensures r.code == 1 <==> |name| >= 1 && name !in reg
    ensures r.code == 0 ==> r.reg == reg
    ensures r.code == 1 ==> r.reg == reg + [name]
    ensures name in r.reg <==> |name| >= 1 || name in reg
    ensures RegistryWf(reg) ==> RegistryWf(r.reg)
  {
    if |name| < 1 || name in reg then Registered(0, reg)
    else Registered(1, reg + [name])
  }

  /** Registering the same name twice changes nothing the second time. */
  lemma RegNameIdempotent(reg: Registry, name: string)
    ensures RegName(RegName(reg, name).reg, name).reg == RegName(reg, name).reg
    ensures RegName(RegName(reg, name).reg, name).code == 0
  {
  }

  /** `getname`'s default name length. */
  const NAME_LTTR_NUM: int := 8

  /** `string.ascii_letters + string.digits + "_"`. */
  const ALPHANUMS: string := "abcdefghijklmnopqrstuvwxyzABCDEFGHIJKLMNOPQRSTUVWXYZ0123456789_"

  /** `max(1, abs(length))`: how many characters each draw picks. */
  function DrawLength(length: int): nat {
    if Abs(length) > 1 then Abs(length) else 1
  }

  /** One draw of `random.choices(ALPHANUMS, k)` is the list of positions
      picked; every position lies inside `ALPHANUMS`. */
  predicate Picks(d: seq<nat>) {
    forall i :: 0 <= i < |d| ==> d[i] < |ALPHANUMS|
  }

  /** The text a draw spells. */
  function Spell(d: seq<nat>): (s: string)
    requires Picks(d)
    ensures |s| == |d|
    ensures forall c :: c in s ==> c in ALPHANUMS
  {
    if d == [] then [] else [ALPHANUMS[d[0]]] + Spell(d[1..])
  }

  datatype NameDraw = Drawn(name: string) | BadLength | Undecided

  /** `getname(length, selection_source)`: refuses a length below 1, then
      draws names of that length from `ALPHANUMS` (the selection source is
      never used) until one is not registered. The random draws are an
      argument; `Undecided` means every supplied draw was already taken, so
      the source would still be drawing. The registry is not touched. */
  method GetName(reg: Registry, length: int, selectionSource: string, draws: seq<seq<nat>>) returns (r: NameDraw)
    requires forall i :: 0 <= i < |draws| ==> Picks(draws[i]) && |draws[i]| == DrawLength(length)
    ensures r == BadLength <==> length < 1
    ensures r.Drawn? ==> |r.name| == length && r.name !in reg
    ensures r.Drawn? ==> forall c :: c in r.name ==> c in ALPHANUMS
    ensures r.Drawn? ==> exists i :: 0 <= i < |draws| && Spell(draws[i]) == r.name && forall j :: 0 <= j < i ==> Spell(draws[j]) in reg
    ensures r.Drawn? ==> RegName(reg, r.name) == Registered(1, reg + [r.name])
    ensures r == Undecided ==> length >= 1 && forall i :: 0 <= i < |draws| ==> RegName(reg, Spell(draws[i])) == Registered(0, reg)
  {
    if length < 1 {
      return BadLength;
    }
    var i := 0;
    while i < |draws|
      invariant 0 <= i <= |draws|
      invariant forall j :: 0 <= j < i ==> Spell(draws[j]) in reg
      invariant forall j :: 0 <= j < i ==> RegName(reg, Spell(draws[j])) == Registered(0, reg)
    {
      var name := Spell(draws[i]);
      if name !in reg {
        return Drawn(name);
      }
      i := i + 1;
    }
    return Undecided;
  }

  /** `getname()` with its defaults: the length `NAME_LTTR_NUM` and the
      ignored `ALPHANUMS` selection source. It never refuses, and a drawn
      name is one `regname` then accepts. */
  method GetDefaultName(reg: Registry, draws: seq<seq<nat>>) returns (r: NameDraw)
    requires forall i :: 0 <= i < |draws| ==> Picks(draws[i]) && |draws[i]| == DrawLength(NAME_LTTR_NUM)
    ensures r != BadLength
    ensures r.Drawn? ==> |r.name| == NAME_LTTR_NUM && r.name !in reg
    ensures r.Drawn? ==> RegName(reg, r.name).code == 1 && RegName(RegName(reg, r.name).reg, r.name).code == 0
  {
    r := GetName(reg, NAME_LTTR_NUM, ALPHANUMS, draws);
    if r.Drawn? {
      RegNameIdempotent(reg, r.name);
    }
  }
}

=== FILE: lexem_buffer.dfy ===
/** `LexemBuffer`: the text gathered for the token being recognised, its fixed
    start point and an identifier drawn from a class-wide counter. */
module LexemBuffers {
  import opened Cursors

  /** The class attribute `_prot`: every identifier issued so far, after a
      leading -1. It lives outside any lexer, so it is threaded separately
      and is not part of a snapshot. */
  type Counter = seq<int>

  const InitialCounter: Counter := [-1]

  /** The shape every reachable counter has: `[-1, 0, 1, ..., n - 1]`. */
  predicate CounterWf(prot: Counter) {
    |prot| >= 1 && forall i :: 0 <= i < |prot| ==> prot[i] == i - 1
  }

  /** The most recently issued identifier (-1 before the first). */
  function Latest(prot: Counter): int
    requires |prot| >= 1
  {
    prot[|prot| - 1]
  }

  datatype Issued = Issued(id: int, prot: Counter)

  /** `LexemBuffer._id()`: issues the successor of the latest identifier and
      records it. */
  function NextId(prot: Counter): (r: Issued)
    requires CounterWf(prot)
    ensures r.id == |prot| - 1
    ensures r.prot == prot + [r.id]
    ensures forall i :: 0 <= i < |prot| ==> prot[i] < r.id
    ensures CounterWf(r.prot) && Latest(r.prot) == r.id
  {
    var id := prot[|prot| - 1] + 1;
    Issued(id, prot + [id])
  }

  lemma InitialCounterWf()
    ensures CounterWf(InitialCounter) && Latest(InitialCounter) == -1
  {
  }

  datatype LexemBuffer = LexemBuffer(id: int, start: Point, currPos: Point, text: string)

  datatype Created = Created(buffer: LexemBuffer, prot: Counter)

  /** `LexemBuffer(start)`: an empty buffer at `start` with a fresh id. */
  function NewBuffer(prot: Counter, start: Point): (r: Created)
    requires CounterWf(prot)
    ensures r.buffer.text == [] && r.buffer.start == start && r.buffer.currPos == start
    ensures r.buffer.id == |prot| - 1 && r.buffer.id > Latest(prot)
    ensures CounterWf(r.prot) && Latest(r.prot) == r.buffer.id
  {
    var issued := NextId(prot);
    Created(LexemBuffer(issued.id, start, start, ""), issued.prot)
  }

  /** `tobuf(arg)`: appends; id, start and current position are kept. */
  function ToBuf(b: LexemBuffer, arg: string): (r: LexemBuffer)
    ensures r.id == b.id && r.start == b.start && r.currPos == b.currPos
    ensures |r.text| == |b.text| + |arg|
    ensures r.text[..|b.text|] == b.text && r.text[|b.text|..] == arg
  {
    b.(text := b.text + arg)
  }

  /** `setpos(new)`: only the current position changes. */
  function SetPos(b: LexemBuffer, pos: Point): (r: LexemBuffer)
    ensures r.id == b.id && r.start == b.start && r.text == b.text
    ensures r.currPos == pos
  {
    b.(currPos := pos)
  }

  /** `update(arg, pos)`: appends and moves the current position. */
  function Update(b: LexemBuffer, arg: string, pos: Point): (r: LexemBuffer)
    ensures r.id == b.id && r.start == b.start
    ensures |r.text| == |b.text| + |arg|
    ensures r.text[..|b.text|] == b.text && r.text[|b.text|..] == arg
    ensures r.currPos == pos
  {
    LexemBuffer(b.id, b.start, pos, b.text + arg)
  }

  /** `update` is `tobuf` followed by `setpos`, and successive appends
      compose into one. */
  lemma UpdateIsToBufThenSetPos(b: LexemBuffer, x: string, y: string, pos: Point)
    ensures Update(b, x, pos) == SetPos(ToBuf(b, x), pos)
    ensures ToBuf(ToBuf(b, x), y) == ToBuf(b, x + y)
  {
  }
}

=== FILE: lexer.dfy ===
/** `DcrLexer`: the cursor, the pending lexem buffer, the trash slots, the
    emitted tokens and a stack of earlier copies of itself for backtracking.
    Every operation returns the new state instead of mutating; a snapshot is
    simply the old value. The buffer-id counter is class-wide in the source,
    so it is threaded next to the state and is never restored by `undo`. */
module Lexer {
  import opened PyCore
  import opened Sentinels
  import opened Cursors
  import opened LexemBuffers
  import opened Tokens
  import opened Guessing

  /** The raw source: one string or a list of lines. */
  datatype Source = SourceText(text: string) | SourceLines(lines: seq<string>)

  /** `not src`: an empty string or an empty list. */
  predicate EmptySource(src: Source) {
    match src
    case SourceText(t) => t == []
    case SourceLines(ls) => ls == []
  }

  datatype LexerState = LexerState(
    backup: seq<LexerState>,
    stage: nat,
    tokens: seq<Token>,
    trash: seq<string>,
    crsr: Cursor,
    srcBuf: seq<PyStr>,
    lxm: LexemBuffer,
    state: Option<string>,
    guess: Option<GuessRule>)

  /** A state together with the buffer-id counter after the operation. */
  datatype Step = Step(lexer: LexerState, prot: Counter)

  /** The backtracking record is consistent: the stage counts the snapshots,
      and snapshot `i` was taken at stage `i` with the first `i` snapshots as
      its own backup stack. */
  predicate Wf(lx: LexerState) {
    && lx.stage == |lx.backup|
    && forall i :: 0 <= i < |lx.backup| ==> lx.backup[i].stage == i && lx.backup[i].backup == lx.backup[..i]
  }

  /** Neither the backup stack nor the stage changed. */
  predicate SameHistory(a: LexerState, b: LexerState) {
    a.backup == b.backup && a.stage == b.stage
  }

  /** Every buffer id and token id in the state, its snapshots included, is
      at most `bound`; token ids increase along the token list and stay below
      the live buffer's id. */
  predicate IdsBelow(lx: LexerState, bound: int)
    decreases lx
  {
    && (forall i, j :: 0 <= i < j < |lx.tokens| ==> lx.tokens[i].idx < lx.tokens[j].idx)
    && (forall i :: 0 <= i < |lx.tokens| ==> lx.tokens[i].idx < lx.lxm.id)
    && lx.lxm.id <= bound
    && forall i :: 0 <= i < |lx.backup| ==> IdsBelow(lx.backup[i], bound)
  }

  /** Whether `deepcopy` can copy the state. It rebuilds each object
      through its class's `__new__`: a `DcrToken` is rebuilt with no
      arguments, but its `__new__` requires type, scope and idx; an
      `EOS`/`EOF`/`NULL` string is rebuilt with its text, but their `__new__`
      takes none. Either raises `TypeError`. Snapshots are copied with the
      state, so they must be copyable too. */
  predicate Copyable(lx: LexerState)
    decreases lx
  {
    && lx.tokens == []
    && (forall i :: 0 <= i < |lx.srcBuf| ==> !lx.srcBuf[i].IsMarker())
    && forall i :: 0 <= i < |lx.backup| ==> Copyable(lx.backup[i])
  }

  /** A call that may raise after it has already mutated the lexer: either it
      completes, or it raises and leaves the state as mutated so far. */
  datatype Attempt<+T> = Completed(value: T) | Raised(exc: Exc, after: LexerState)

  /** The joined text of a list of strings. */
  function Concat(xs: seq<string>): string {
    if xs == [] then [] else xs[0] + Concat(xs[1..])
  }

  lemma {:induction false} ConcatAppend(xs: seq<string>, x: string)
    ensures Concat(xs + [x]) == Concat(xs) + x
  {
    if xs == [] {
      assert xs + [x] == [x];
      assert [x][1..] == [];
    } else {
      assert (xs + [x])[1..] == xs[1..] + [x];
      ConcatAppend(xs[1..], x);
    }
  }

  // ---------------------------------------------------------------------------
  // Construction and plain accessors

  /** The default `preprocess`: the list it returns is never appended to, so
      whatever the source and options, the result is empty. */
  function Preprocess(src: Source, xOffset: int, xCutoff: int): (r: seq<PyStr>)
    ensures |r| == 0
  {
    []
  }

  /** The state right after construction. */
  predicate Fresh(lx: LexerState) {
    && lx.backup == [] && lx.stage == 0 && lx.tokens == [] && lx.trash == []
    && lx.crsr == Origin && lx.lxm.text == [] && lx.lxm.start == (0, 0)
    && lx.state == None && lx.guess == None
  }

  /** `DcrLexer(src, func)`: refuses an empty source with `ValueError` before
      anything else happens; otherwise starts at the origin with one fresh
      buffer. `srcBuf` is what `func(src)` returned. */
  function Init(src: Source, srcBuf: seq<PyStr>, prot: Counter): (r: Result<Step>)
    requires CounterWf(prot)
    ensures r.Err? <==> EmptySource(src)
    ensures r.Err? ==> r.exc == ValueError
    ensures r.Ok? ==> Fresh(r.value.lexer) && r.value.lexer.srcBuf == srcBuf && r.value.lexer.lxm.currPos == r.value.lexer.lxm.start
    ensures r.Ok? ==> r.value.lexer.lxm.id == |prot| - 1 && CounterWf(r.value.prot) && Latest(r.value.prot) == r.value.lexer.lxm.id
    ensures r.Ok? ==> Wf(r.value.lexer) && IdsBelow(r.value.lexer, Latest(r.value.prot))
  {
    if EmptySource(src) then Err(ValueError)
    else
      var made := NewBuffer(prot, Cursors.Pos(Origin));
      Ok(Step(LexerState([], 0, [], [], Origin, srcBuf, made.buffer, None, None), made.prot))
  }

  /** `DcrLexer(src, func)` as written: the first buffer's start is
      `tuple(self._crsr)` on the fresh cursor, which raises `ValueError`
      before the buffer, and so before any id, is made. The statements after
      it are never reached, so a non-empty source fails as an empty one does. */
  function InitAsWritten(src: Source, srcBuf: seq<PyStr>, prot: Counter): (r: Result<Step>)
    ensures r.Err? && r.exc == ValueError
  {
    if EmptySource(src) then Err(ValueError)
    else Tuple(Origin).PropagateFailure()
  }

  /** The `pos` property: the cursor as a tuple, as evidently intended,
      that is the items `cursor[0]` and `cursor[1]` that iterating it yields. */
  function Position(lx: LexerState): (r: Point)
    ensures GetItem(lx.crsr, 0) == Some(r.0) && GetItem(lx.crsr, 1) == Some(r.1)
  {
    Cursors.Pos(lx.crsr)
  }

  /** The `pos` property as written: `tuple(self._crsr)` raises `ValueError`
      while the cursor's count is negative. */
  function PositionAsWritten(lx: LexerState): (r: Result<Point>)
    ensures r.Err? <==> Len(lx.crsr).Err?
    ensures r.Err? ==> r.exc == ValueError
    ensures r.Ok? ==> r.value == Position(lx)
  {
    Tuple(lx.crsr)
  }

  /** `get_tokens()`: a copy of the emitted tokens, in emission order. */
  function GetTokens(lx: LexerState): (r: seq<Token>)
    ensures |r| == |lx.tokens|
    ensures forall i :: 0 <= i < |r| ==> r[i] == lx.tokens[i]
  {
    lx.tokens
  }

  /** The `state` getter: whether the buffer holds any text. */
  function StateFlag(lx: LexerState): (b: bool)
    ensures b <==> lx.lxm.text != ""
  {
    |lx.lxm.text| > 0
  }

  /** The `state` setter writes the separate `_state` field. */
  function SetState(lx: LexerState, other: string): (r: LexerState)
    ensures r.state == Some(other)
    ensures r == lx.(state := r.state)
    ensures StateFlag(r) == StateFlag(lx)
  {
    lx.(state := Some(other))
  }

  // ---------------------------------------------------------------------------
  // Snapshots

  /** `snapshot()`: pushes a copy of the whole current state, taken before
      the push, and counts one more stage. */
  function Snapshot(lx: LexerState): (r: LexerState)
    ensures r.stage == lx.stage + 1 && |r.backup| == |lx.backup| + 1
    ensures r.backup[..|lx.backup|] == lx.backup && r.backup[|lx.backup|] == lx
    ensures r == lx.(backup := r.backup, stage := r.stage)
    ensures Wf(lx) ==> Wf(r)
  {
    lx.(backup := lx.backup + [lx], stage := lx.stage + 1)
  }

  /** `snapshot()` as written: `deepcopy(self)` raises `TypeError` unless
      the state is copyable, and then nothing changes. */
  function SnapshotAsWritten(lx: LexerState): (r: Result<LexerState>)
    ensures r.Ok? <==> Copyable(lx)
    ensures r.Err? ==> r.exc == TypeError
    ensures r.Ok? ==> r.value == Snapshot(lx)
  {
    if Copyable(lx) then Ok(Snapshot(lx)) else Err(TypeError)
  }

  /** `get_backup(backsteps, strict)`: `backup[-|backsteps|]`, so 0 gives the
      oldest snapshot; a request beyond the stage raises when strict and
      falls back to the oldest snapshot otherwise. */
  function GetBackup(lx: LexerState, backsteps: int, strict: bool): (r: Result<LexerState>)
    ensures strict && Abs(backsteps) > lx.stage ==> r == Err(IndexError)
    ensures Wf(lx) && !strict && Abs(backsteps) > lx.stage ==> r == (if lx.stage == 0 then Err(IndexError) else Ok(lx.backup[0]))
    ensures Wf(lx) && 1 <= Abs(backsteps) <= lx.stage ==> r == Ok(lx.backup[lx.stage - Abs(backsteps)])
    ensures Wf(lx) && backsteps == 0 ==> r == (if lx.stage == 0 then Err(IndexError) else Ok(lx.backup[0]))
    ensures r.Err? ==> r.exc == IndexError
  {
    if Abs(backsteps) > lx.stage && strict then Err(IndexError)
    else if Abs(backsteps) > lx.stage then Index(lx.backup, 0)
    else
      var k: int := Abs(backsteps);
      Index(lx.backup, -k)
  }

  /** Every snapshot of a consistent state is itself consistent. */
  lemma WfBackups(lx: LexerState)
    ensures Wf(lx) ==> forall i :: 0 <= i < |lx.backup| ==> Wf(lx.backup[i])
  {
    if Wf(lx) {
      forall i | 0 <= i < |lx.backup|
        ensures Wf(lx.backup[i])
      {
        var b := lx.backup[i];
        assert b.backup == lx.backup[..i];
        forall j | 0 <= j < |b.backup|
          ensures b.backup[j].stage == j && b.backup[j].backup == b.backup[..j]
        {
          assert b.backup[j] == lx.backup[j];
          assert lx.backup[..i][..j] == lx.backup[..j];
        }
      }
    }
  }

  /** `undo(backsteps, strict)`: at stage 0 it raises; otherwise the whole
      state, backup stack and stage included, becomes the chosen snapshot. */
  function Undo(lx: LexerState, backsteps: int, strict: bool): (r: Result<LexerState>)
    ensures lx.stage == 0 ==> r == Err(IndexError)
    ensures r.Err? ==> r.exc == IndexError
    ensures Wf(lx) && r.Ok? ==> Wf(r.value) && r.value.stage < lx.stage && r.value == lx.backup[r.value.stage]
    ensures Wf(lx) && 1 <= Abs(backsteps) <= lx.stage ==> r == Ok(lx.backup[lx.stage - Abs(backsteps)])
    ensures Wf(lx) && lx.stage > 0 && (!strict || Abs(backsteps) <= lx.stage) ==> r.Ok?
    ensures lx.stage > 0 ==> r == GetBackup(lx, backsteps, strict)
  {
    WfBackups(lx);
    if lx.stage == 0 then Err(IndexError)
    else GetBackup(lx, backsteps, strict)
  }

  /** `guess(g)`: refuses while a guess is active; otherwise snapshots and
      records the guess. */
  function Guess(lx: LexerState, g: Option<GuessRule>): (r: Result<LexerState>)
    ensures r.Err? <==> lx.guess.Some?
    ensures r.Err? ==> r.exc == PermissionError
    ensures r.Ok? ==> r.value.guess == g && r.value.stage == lx.stage + 1
    ensures r.Ok? ==> |r.value.backup| == |lx.backup| + 1 && r.value.backup[|lx.backup|] == lx
    ensures r.Ok? ==> r.value == lx.(backup := r.value.backup, stage := r.value.stage, guess := g)
    ensures r.Ok? && Wf(lx) ==> Wf(r.value)
  {
    if lx.guess.Some? then Err(PermissionError)
    else Ok(Snapshot(lx).(guess := g))
  }

  /** `undo(backsteps, strict)` as written: the chosen snapshot's attributes
      are restored through `deepcopy`, which raises `TypeError` on a snapshot
      that is not copyable. */
  function UndoAsWritten(lx: LexerState, backsteps: int, strict: bool): (r: Result<LexerState>)
    ensures r.Ok? <==> Undo(lx, backsteps, strict).Ok? && Copyable(Undo(lx, backsteps, strict).value)
    ensures r.Ok? ==> r == Undo(lx, backsteps, strict)
    ensures r.Err? && Undo(lx, backsteps, strict).Ok? ==> r.exc == TypeError
    ensures Undo(lx, backsteps, strict).Err? ==> r == Undo(lx, backsteps, strict)
  {
    var b :- Undo(lx, backsteps, strict);
    if Copyable(b) then Ok(b) else Err(TypeError)
  }

  /** `guess(g)` as written: after the guard, the snapshot's `deepcopy` can
      raise `TypeError`. */
  function GuessAsWritten(lx: LexerState, g: Option<GuessRule>): (r: Result<LexerState>)
    ensures lx.guess.Some? ==> r == Err(PermissionError)
    ensures lx.guess.None? && !Copyable(lx) ==> r == Err(TypeError)
    ensures r.Ok? <==> lx.guess.None? && Copyable(lx)
    ensures r.Ok? ==> r == Guess(lx, g)
  {
    if lx.guess.Some? then Err(PermissionError)
    else
      var s :- SnapshotAsWritten(lx);
      Ok(s.(guess := g))
  }

  /** `unguess()`: undoes one snapshot and clears the guess. */
  function Unguess(lx: LexerState): (r: Result<LexerState>)
    ensures lx.stage == 0 ==> r == Err(IndexError)
    ensures Wf(lx) && lx.stage > 0 ==> r == Ok(lx.backup[lx.stage - 1].(guess := None))
  {
    var u :- Undo(lx, 1, true);
    Ok(u.(guess := None))
  }

  /** `unguess()` as written, on top of the written `undo`. */
  function UnguessAsWritten(lx: LexerState): (r: Result<LexerState>)
    ensures r.Ok? <==> UndoAsWritten(lx, 1, true).Ok?
    ensures r.Ok? ==> r == Unguess(lx)
    ensures r.Err? ==> r.exc == UndoAsWritten(lx, 1, true).exc
  {
    var u :- UndoAsWritten(lx, 1, true);
    Ok(u.(guess := None))
  }

  // ---------------------------------------------------------------------------
  // Buffer and trash

  /** `self._trash[-1] += arg`: raises on an empty trash list. */
  function AppendToLastSlot(trash: seq<string>, arg: string): (r: Result<seq<string>>)
    ensures r.Err? <==> trash == []
    ensures r.Err? ==> r.exc == IndexError
    ensures r.Ok? ==> |r.value| == |trash| && r.value[..|trash| - 1] == trash[..|trash| - 1]
    ensures r.Ok? ==> r.value[|trash| - 1] == trash[|trash| - 1] + arg
    ensures r.Ok? ==> Concat(r.value) == Concat(trash) + arg
  {
    if trash == [] then Err(IndexError)
    else
      var init, last := trash[..|trash| - 1], trash[|trash| - 1];
      assert trash == init + [last];
      ConcatAppend(init, last);
      ConcatAppend(init, last + arg);
      Ok(init + [last + arg])
  }

  /** `tobuf(arg)`: appends to the pending buffer only. */
  function ToBuf(lx: LexerState, arg: string): (r: LexerState)
    ensures r.lxm.text == lx.lxm.text + arg
    ensures r.lxm.id == lx.lxm.id && r.lxm.start == lx.lxm.start && r.lxm.currPos == lx.lxm.currPos
    ensures r == lx.(lxm := r.lxm)
  {
    lx.(lxm := LexemBuffers.ToBuf(lx.lxm, arg))
  }

  /** The trash after `arg` is appended: to a new slot of its own when
      `newElem`, otherwise to the last existing slot, every earlier slot
      unchanged. */
  function SlotAppended(trash: seq<string>, arg: string, newElem: bool): seq<string>
    requires newElem || trash != []
  {
    if newElem then trash + [arg]
    else trash[..|trash| - 1] + [trash[|trash| - 1] + arg]
  }

  /** `totrash(arg, new_elem)`: optionally opens a new trash slot, then
      appends `arg` to the last slot. */
  function Totrash(lx: LexerState, arg: string, newElem: bool): (r: Result<LexerState>)
    ensures r.Err? <==> !newElem && lx.trash == []
    ensures r.Err? ==> r.exc == IndexError
    ensures r.Ok? ==> Concat(r.value.trash) == Concat(lx.trash) + arg
    ensures r.Ok? ==> |r.value.trash| == |lx.trash| + (if newElem then 1 else 0)
    ensures r.Ok? ==> r.value.trash == SlotAppended(lx.trash, arg, newElem)
    ensures r.Ok? ==> r.value == lx.(trash := r.value.trash)
  {
    var slots := if newElem then lx.trash + [""] else lx.trash;
    ConcatAppend(lx.trash, "");
    var t :- AppendToLastSlot(slots, arg);
    assert t == t[..|slots| - 1] + [t[|slots| - 1]];
    assert newElem ==> slots[..|slots| - 1] == lx.trash && t[|slots| - 1] == "" + arg == arg;
    assert !newElem ==> slots == lx.trash;
    Ok(lx.(trash := t))
  }

  /** `burn_lxm_payload(to_new_trash_elem)`: the pending text goes to the
      trash and a fresh, empty buffer starts at the cursor. */
  function BurnLxmPayload(lx: LexerState, prot: Counter, toNewTrashElem: bool): (r: Result<Step>)
    requires CounterWf(prot)
    ensures r.Err? <==> !toNewTrashElem && lx.trash == []
    ensures r.Err? ==> r.exc == IndexError
    ensures r.Ok? ==> Concat(r.value.lexer.trash) + r.value.lexer.lxm.text == Concat(lx.trash) + lx.lxm.text
    ensures r.Ok? ==> r.value.lexer.trash == SlotAppended(lx.trash, lx.lxm.text, toNewTrashElem)
    ensures r.Ok? ==> r.value.lexer.lxm.text == [] && r.value.lexer.lxm.start == Position(lx)
    ensures r.Ok? ==> r.value.lexer.lxm.currPos == r.value.lexer.lxm.start
    ensures r.Ok? ==> r.value.lexer.lxm.id == |prot| - 1 && CounterWf(r.value.prot) && Latest(r.value.prot) == r.value.lexer.lxm.id
    ensures r.Ok? ==> r.value.lexer == lx.(trash := r.value.lexer.trash, lxm := r.value.lexer.lxm)
  {
    var burnt :- Totrash(lx, lx.lxm.text, toNewTrashElem);
    var made := NewBuffer(prot, Position(lx));
    Ok(Step(burnt.(lxm := made.buffer), made.prot))
  }

  /** `burn_lxm_payload` as written: the pending text has already been put
      into the trash when `tuple(self._crsr)` raises `ValueError`, so the old
      buffer, text and all, stays in place next to its copy in the trash. */
  function BurnLxmPayloadAsWritten(lx: LexerState, prot: Counter, toNewTrashElem: bool): (r: Attempt<Step>)
    requires CounterWf(prot)
    ensures r.Raised? && r.exc == IndexError <==> !toNewTrashElem && lx.trash == []
    ensures r.Raised? && r.exc == IndexError ==> r.after == lx
    ensures r.Raised? ==> r.exc == IndexError || r.exc == ValueError
    ensures r.Raised? && r.exc == ValueError <==> (toNewTrashElem || lx.trash != []) && Len(lx.crsr).Err?
    ensures r.Raised? && r.exc == ValueError ==> r.after == lx.(trash := SlotAppended(lx.trash, lx.lxm.text, toNewTrashElem))
    ensures r.Completed? ==> BurnLxmPayload(lx, prot, toNewTrashElem) == Ok(r.value)
  {
    match Totrash(lx, lx.lxm.text, toNewTrashElem)
    case Err(e) => Raised(e, lx)
    case Ok(burnt) =>
      match Tuple(lx.crsr)
      case Err(e) => Raised(e, burnt)
      case Ok(start) =>
        var made := NewBuffer(prot, start);
        Completed(Step(burnt.(lxm := made.buffer), made.prot))
  }

  datatype Marked = Marked(lexer: LexerState, prot: Counter, token: Token)

  /** `mark_end(token_type)`: emits a token spanning from the buffer's start
      to the last consumed position, with the buffer's id and text; clears
      the guess and `_state`, starts a fresh buffer at the cursor and opens
      a new trash slot. `last()` raising leaves everything untouched. */
  function MarkEnd(lx: LexerState, prot: Counter, tokenType: string): (r: Result<Marked>)
    requires CounterWf(prot)
    ensures r.Err? <==> Last(lx.crsr).Err?
    ensures r.Err? ==> r.exc == IndexError
    ensures r.Ok? ==> r.value.token == Token(tokenType, Scope(lx.lxm.start, Last(lx.crsr).value), lx.lxm.id, Some(lx.lxm.text))
    ensures r.Ok? ==> r.value.lexer.tokens == lx.tokens + [r.value.token]
    ensures r.Ok? ==> r.value.lexer.guess == None && r.value.lexer.state == None
    ensures r.Ok? ==> r.value.lexer.lxm.text == [] && r.value.lexer.lxm.start == Position(lx)
    ensures r.Ok? ==> r.value.lexer.lxm.id == |prot| - 1 && CounterWf(r.value.prot) && Latest(r.value.prot) == r.value.lexer.lxm.id
    ensures r.Ok? ==> r.value.lexer.trash == lx.trash + [""]
    ensures r.Ok? ==> r.value.lexer.lxm.currPos == r.value.lexer.lxm.start
    ensures r.Ok? ==> r.value.lexer == lx.(tokens := r.value.lexer.tokens, guess := None, state := None, lxm := r.value.lexer.lxm, trash := r.value.lexer.trash)
    ensures r.Ok? ==> r.value.lexer.crsr == lx.crsr && r.value.lexer.srcBuf == lx.srcBuf && SameHistory(r.value.lexer, lx)
  {
    var last :- Last(lx.crsr);
    var tkn := MakeToken(tokenType, (lx.lxm.start, last), lx.lxm.id, Some(lx.lxm.text));
    var made := NewBuffer(prot, Position(lx));
    Ok(Marked(lx.(tokens := lx.tokens + [tkn], guess := None, state := None, lxm := made.buffer, trash := lx.trash + [""]), made.prot, tkn))
  }

  /** `mark_end` as written: once `last()` has succeeded, the token is
      appended and the guess and `_state` are cleared before
      `tuple(self._crsr)` raises `ValueError`; the buffer, the trash and the
      id counter are then left as they were. */
  function MarkEndAsWritten(lx: LexerState, prot: Counter, tokenType: string): (r: Attempt<Marked>)
    requires CounterWf(prot)
    ensures r.Raised? && r.exc == IndexError <==> Last(lx.crsr).Err?
    ensures r.Raised? && r.exc == IndexError ==> r.after == lx
    ensures r.Raised? ==> r.exc == IndexError || r.exc == ValueError
    ensures r.Raised? && r.exc == ValueError <==> Last(lx.crsr).Ok? && Len(lx.crsr).Err?
    ensures r.Raised? && r.exc == ValueError ==>
      r.after == lx.(tokens := lx.tokens + [MarkEnd(lx, prot, tokenType).value.token], guess := None, state := None)
    ensures r.Completed? ==> MarkEnd(lx, prot, tokenType) == Ok(r.value)
  {
    match Last(lx.crsr)
    case Err(e) => Raised(e, lx)
    case Ok(last) =>
      var tkn := MakeToken(tokenType, (lx.lxm.start, last), lx.lxm.id, Some(lx.lxm.text));
      var partial := lx.(tokens := lx.tokens + [tkn], guess := None, state := None);
      match Tuple(lx.crsr)
      case Err(e) => Raised(e, partial)
      case Ok(start) =>
        var made := NewBuffer(prot, start);
        Completed(Marked(partial.(lxm := made.buffer, trash := lx.trash + [""]), made.prot, tkn))
  }

  // ---------------------------------------------------------------------------
  // Reading characters

  /** The source line under the cursor. */
  function CurrentLine(lx: LexerState): Result<PyStr> {
    Index(lx.srcBuf, lx.crsr.line)
  }

  /** `lookahead()`: the line under the cursor if it is an end marker,
      otherwise its character at the cursor's column. The source tests the
      names `Eof` and `Null`; the marker classes they stand for are `eof`
      and `null`. An `EOS` line is text like any other. */
  function Lookahead(lx: LexerState): (r: Result<PyStr>)
    ensures CurrentLine(lx).Err? ==> r == Err(IndexError)
    ensures CurrentLine(lx).Ok? && (CurrentLine(lx).value.Eof? || CurrentLine(lx).value.Null?) ==> r == CurrentLine(lx)
    ensures r.Ok? && r.value.Plain? ==> CurrentLine(lx).Ok? && |r.value.s| == 1 && Index(CurrentLine(lx).value.Text(), lx.crsr.col) == Ok(r.value.s[0])
    ensures CurrentLine(lx).Ok? && !(CurrentLine(lx).value.Eof? || CurrentLine(lx).value.Null?) ==>
      (r.Ok? <==> Index(CurrentLine(lx).value.Text(), lx.crsr.col).Ok?)
    ensures r.Ok? && !r.value.Plain? ==> r == CurrentLine(lx)
    ensures r.Ok? ==> r.value.Plain? || r.value.Eof? || r.value.Null?
    ensures r.Err? ==> r.exc == IndexError
  {
    var line :- CurrentLine(lx);
    if line.Eof? || line.Null? then Ok(line)
    else
      var ch :- Index(line.Text(), lx.crsr.col);
      Ok(Plain([ch]))
  }

  /** `lookahead()` as written: once the line is fetched, evaluating the
      undefined names `Eof | Null` raises `NameError`. */
  function LookaheadAsWritten(lx: LexerState): (r: Result<PyStr>)
    ensures r.Err?
    ensures r.exc == NameError <==> CurrentLine(lx).Ok?
  {
    var line :- CurrentLine(lx);
    Err(NameError)
  }

  /** `move_forward(skip)`: reads the character under the cursor into the
      buffer, or into the last trash slot when `skip`; an end marker raises
      `EOFError`. The cursor itself is never advanced. */
  function MoveForward(lx: LexerState, skip: bool): (r: Result<LexerState>)
    ensures Lookahead(lx).Err? ==> r == Err(IndexError)
    ensures Lookahead(lx).Ok? && !Lookahead(lx).value.Plain? ==> r == Err(EOFError)
    ensures r.Err? <==> Lookahead(lx).Err? || !Lookahead(lx).value.Plain? || (skip && lx.trash == [])
    ensures r.Err? ==> r.exc == IndexError || r.exc == EOFError
    ensures skip && lx.trash == [] && Lookahead(lx).Ok? && Lookahead(lx).value.Plain? ==> r == Err(IndexError)
    ensures r.Ok? ==> r.value.crsr == lx.crsr && r.value.tokens == lx.tokens && SameHistory(r.value, lx)
    ensures r.Ok? && !skip ==> r.value == lx.(lxm := r.value.lxm) && r.value.lxm.text == lx.lxm.text + Lookahead(lx).value.s
    ensures r.Ok? && !skip ==> r.value.lxm.id == lx.lxm.id && r.value.lxm.start == lx.lxm.start && r.value.lxm.currPos == lx.lxm.currPos
    ensures r.Ok? && skip ==> r.value == lx.(trash := r.value.trash) && Concat(r.value.trash) == Concat(lx.trash) + Lookahead(lx).value.s
    ensures r.Ok? && skip ==> r.value.trash == SlotAppended(lx.trash, Lookahead(lx).value.s, false)
  {
    var ch :- Lookahead(lx);
    if ch.Eof? || ch.Null? then Err(EOFError)
    else if !skip then Ok(ToBuf(lx, ch.Text()))
    else Totrash(lx, ch.Text(), false)
  }
}

=== FILE: lexer_proofs.dfy ===
/** Properties relating several lexer operations: backtracking round trips,
    freshness of buffer ids, conservation of consumed text, and what the
    non-advancing `move_forward` implies for emitted tokens. */
module LexerProofs {
  import opened PyCore
  import opened Sentinels
  import opened Cursors
  import opened LexemBuffers
  import opened Tokens
  import opened Guessing
  import opened Lexer

  // ---------------------------------------------------------------------------
  // Backtracking

  /** `undo()` right after `snapshot()` gives back the earlier state exactly,
      backup stack and stage included, whatever `strict` is. */
  lemma SnapshotUndoRoundTrip(lx: LexerState, strict: bool)
    ensures Undo(Snapshot(lx), 1, strict) == Ok(lx)
  {
  }

  /** `guess` then `unguess` restores the state; a second `guess` while one is
      active is refused. */
  lemma GuessUnguessRoundTrip(lx: LexerState, g: Option<GuessRule>, h: Option<GuessRule>)
    requires lx.guess == None
    ensures Guess(lx, g).Ok? && Unguess(Guess(lx, g).value) == Ok(lx)
    ensures g.Some? ==> Guess(Guess(lx, g).value, h) == Err(PermissionError)
  {
  }

  /** Where `deepcopy` succeeds, the written `snapshot`/`undo` and
      `guess`/`unguess` round trips hold as the intended ones do. */
  lemma AsWrittenRoundTrips(lx: LexerState, g: Option<GuessRule>, strict: bool)
    requires Copyable(lx)
    ensures SnapshotAsWritten(lx).Ok? && UndoAsWritten(SnapshotAsWritten(lx).value, 1, strict) == Ok(lx)
    ensures lx.guess == None ==> GuessAsWritten(lx, g).Ok? && UnguessAsWritten(GuessAsWritten(lx, g).value) == Ok(lx)
  {
  }

  /** Once `mark_end` has emitted a token, the written `snapshot` and
      `guess` raise `TypeError`, while the intended `guess` goes ahead. */
  lemma SnapshotRefusedOnceTokenExists(lx: LexerState, prot: Counter, t: string, g: Option<GuessRule>)
    requires CounterWf(prot) && MarkEnd(lx, prot, t).Ok?
    ensures SnapshotAsWritten(MarkEnd(lx, prot, t).value.lexer) == Err(TypeError)
    ensures GuessAsWritten(MarkEnd(lx, prot, t).value.lexer, g) == Err(TypeError)
    ensures Guess(MarkEnd(lx, prot, t).value.lexer, g).Ok?
  {
  }

  /** A source buffer holding an end marker, as one that announces its end
      with `EOF` does, can never be snapshotted as written. */
  lemma SnapshotRefusedWithEndMarker(lx: LexerState, i: int, g: Option<GuessRule>)
    requires 0 <= i < |lx.srcBuf| && lx.srcBuf[i].IsMarker()
    ensures SnapshotAsWritten(lx) == Err(TypeError)
    ensures lx.guess == None ==> GuessAsWritten(lx, g) == Err(TypeError)
  {
  }

  /** Work done after a snapshot by operations that leave the history alone
      is thrown away by one `undo()`. */
  lemma UndoDiscardsWork(lx: LexerState, later: LexerState)
    requires SameHistory(later, Snapshot(lx))
    ensures Undo(later, 1, true) == Ok(lx)
  {
    assert later.backup[|later.backup| - 1] == lx;
  }

  /** `k` snapshots in a row. */
  function SnapshotN(lx: LexerState, k: nat): LexerState
    decreases k
  {
    if k == 0 then lx else Snapshot(SnapshotN(lx, k - 1))
  }

  lemma {:induction false} SnapshotNShape(lx: LexerState, k: nat)
    ensures SnapshotN(lx, k).stage == lx.stage + k
    ensures |SnapshotN(lx, k).backup| == |lx.backup| + k
    ensures k >= 1 ==> SnapshotN(lx, k).backup[|lx.backup|] == lx
    ensures Wf(lx) ==> Wf(SnapshotN(lx, k))
    decreases k
  {
    if k > 0 {
      SnapshotNShape(lx, k - 1);
      var prev := SnapshotN(lx, k - 1);
      if k > 1 {
        assert Snapshot(prev).backup[|lx.backup|] == prev.backup[|lx.backup|];
      }
    }
  }

  /** After `k` snapshots, `undo(k)` returns to the state before the first,
      and asking for one more step back is refused when strict and lands on
      the oldest snapshot otherwise. */
  lemma UndoAfterSnapshots(lx: LexerState, k: nat)
    requires Wf(lx) && k >= 1
    ensures Undo(SnapshotN(lx, k), k, true) == Ok(lx)
    ensures Undo(SnapshotN(lx, k), 0 - k, true) == Ok(lx)
    ensures Undo(SnapshotN(lx, k), lx.stage + k + 1, true) == Err(IndexError)
    ensures Undo(SnapshotN(lx, k), lx.stage + k + 1, false) == Ok(SnapshotN(lx, k).backup[0])
  {
    SnapshotNShape(lx, k);
  }

  /** `undo(0)` rewinds to the very first snapshot, not to the latest. */
  lemma UndoZeroIsOldest(lx: LexerState)
    requires Wf(lx) && lx.stage >= 2
    ensures Undo(lx, 0, true) == Ok(lx.backup[0])
    ensures Undo(lx, 1, true) == Ok(lx.backup[lx.stage - 1]) && lx.backup[0] != lx.backup[lx.stage - 1]
  {
    assert lx.backup[0].stage == 0 && lx.backup[lx.stage - 1].stage == lx.stage - 1;
  }

  /** Every state-changing operation other than `snapshot` keeps the
      backtracking record consistent. */
  lemma OperationsKeepWf(lx: LexerState, prot: Counter, arg: string, flag: bool, g: Option<GuessRule>, k: int)
    requires Wf(lx) && CounterWf(prot)
    ensures MarkEnd(lx, prot, arg).Ok? ==> Wf(MarkEnd(lx, prot, arg).value.lexer)
    ensures BurnLxmPayload(lx, prot, flag).Ok? ==> Wf(BurnLxmPayload(lx, prot, flag).value.lexer)
    ensures MoveForward(lx, flag).Ok? ==> Wf(MoveForward(lx, flag).value)
    ensures Guess(lx, g).Ok? ==> Wf(Guess(lx, g).value)
    ensures Undo(lx, k, flag).Ok? ==> Wf(Undo(lx, k, flag).value)
    ensures Unguess(lx).Ok? ==> Wf(Unguess(lx).value)
  {
  }

  // ---------------------------------------------------------------------------
  // Buffer ids

  lemma {:induction false} IdsBelowMonotone(lx: LexerState, b: int, b': int)
    requires IdsBelow(lx, b) && b <= b'
    ensures IdsBelow(lx, b')
    decreases lx
  {
    forall i | 0 <= i < |lx.backup|
      ensures IdsBelow(lx.backup[i], b')
    {
      IdsBelowMonotone(lx.backup[i], b, b');
    }
  }

  /** `mark_end` keeps every id of the state below the counter, with the
      new token's id above all earlier token ids. */
  lemma MarkEndKeepsIdsFresh(lx: LexerState, prot: Counter, t: string)
    requires CounterWf(prot) && IdsBelow(lx, Latest(prot))
    requires MarkEnd(lx, prot, t).Ok?
    ensures IdsBelow(MarkEnd(lx, prot, t).value.lexer, Latest(MarkEnd(lx, prot, t).value.prot))
    ensures forall i :: 0 <= i < |lx.tokens| ==> lx.tokens[i].idx < MarkEnd(lx, prot, t).value.token.idx
  {
    var m := MarkEnd(lx, prot, t).value;
    IdsBelowMonotone(lx, Latest(prot), Latest(m.prot));
  }

  /** `burn_lxm_payload` keeps every id of the state below the counter. */
  lemma BurnKeepsIdsFresh(lx: LexerState, prot: Counter, flag: bool)
    requires CounterWf(prot) && IdsBelow(lx, Latest(prot))
    requires BurnLxmPayload(lx, prot, flag).Ok?
    ensures IdsBelow(BurnLxmPayload(lx, prot, flag).value.lexer, Latest(BurnLxmPayload(lx, prot, flag).value.prot))
  {
    var s := BurnLxmPayload(lx, prot, flag).value;
    IdsBelowMonotone(lx, Latest(prot), Latest(s.prot));
  }

  /** Snapshots, undo, guesses and reading characters issue no id and keep
      the bound. */
  lemma OtherOperationsKeepIds(lx: LexerState, bound: int, flag: bool, g: Option<GuessRule>, k: int)
    requires IdsBelow(lx, bound)
    ensures IdsBelow(Snapshot(lx), bound)
    ensures Undo(lx, k, flag).Ok? ==> IdsBelow(Undo(lx, k, flag).value, bound)
    ensures Guess(lx, g).Ok? ==> IdsBelow(Guess(lx, g).value, bound)
    ensures MoveForward(lx, flag).Ok? ==> IdsBelow(MoveForward(lx, flag).value, bound)
  {
    var s := Snapshot(lx);
    assert forall i :: 0 <= i < |s.backup| ==> s.backup[i] == lx || s.backup[i] == lx.backup[i];
    MoveForwardKeepsIds(lx, bound, flag);
  }

  /** Reading a character changes neither the tokens, the snapshots nor the
      buffer's id, so the bound survives it. */
  lemma MoveForwardKeepsIds(lx: LexerState, bound: int, skip: bool)
    requires IdsBelow(lx, bound)
    ensures MoveForward(lx, skip).Ok? ==> IdsBelow(MoveForward(lx, skip).value, bound)
  {
    if MoveForward(lx, skip).Ok? {
      var m := MoveForward(lx, skip).value;
      assert m.tokens == lx.tokens && m.backup == lx.backup && m.lxm.id == lx.lxm.id;
    }
  }

  /** Rewinding never lets an id come back: after `undo` the next buffer
      `mark_end` opens has an id larger than every id the state held before
      the undo, in its tokens, its buffer and all its snapshots. */
  lemma UndoNeverReusesIds(lx: LexerState, prot: Counter, k: int, strict: bool, t: string)
    requires CounterWf(prot) && IdsBelow(lx, Latest(prot))
    requires Undo(lx, k, strict).Ok? && MarkEnd(Undo(lx, k, strict).value, prot, t).Ok?
    ensures IdsBelow(lx, MarkEnd(Undo(lx, k, strict).value, prot, t).value.lexer.lxm.id - 1)
    ensures lx.lxm.id < MarkEnd(Undo(lx, k, strict).value, prot, t).value.lexer.lxm.id
  {
  }

  // ---------------------------------------------------------------------------
  // Consumed text

  function PayloadText(t: Token): string {
    match t.payload
    case Some(p) => p
    case None => ""
  }

  function Payloads(ts: seq<Token>): string {
    if ts == [] then [] else PayloadText(ts[0]) + Payloads(ts[1..])
  }

  lemma {:induction false} PayloadsAppend(ts: seq<Token>, t: Token)
    ensures Payloads(ts + [t]) == Payloads(ts) + PayloadText(t)
  {
    if ts == [] {
      assert ts + [t] == [t];
      assert [t][1..] == [];
    } else {
      assert (ts + [t])[1..] == ts[1..] + [t];
      PayloadsAppend(ts[1..], t);
    }
  }

  /** All text the state holds: emitted payloads, trash and pending buffer. */
  function Held(lx: LexerState): string {
    Payloads(lx.tokens) + Concat(lx.trash) + lx.lxm.text
  }

  /** `mark_end` only moves the pending text into the new token: no
      character is lost or duplicated, and the new token's payload is the
      text that was pending. */
  lemma MarkEndKeepsText(lx: LexerState, prot: Counter, t: string)
    requires CounterWf(prot) && MarkEnd(lx, prot, t).Ok?
    ensures multiset(Held(MarkEnd(lx, prot, t).value.lexer)) == multiset(Held(lx))
    ensures Payloads(MarkEnd(lx, prot, t).value.lexer.tokens) == Payloads(lx.tokens) + lx.lxm.text
  {
    var m := MarkEnd(lx, prot, t).value;
    PayloadsAppend(lx.tokens, m.token);
    ConcatAppend(lx.trash, "");
  }

  /** `burn_lxm_payload` moves the pending text into the trash: the held text
      is unchanged. */
  lemma BurnKeepsText(lx: LexerState, prot: Counter, flag: bool)
    requires CounterWf(prot) && BurnLxmPayload(lx, prot, flag).Ok?
    ensures Held(BurnLxmPayload(lx, prot, flag).value.lexer) == Held(lx)
  {
  }

  /** A successful `move_forward` adds exactly the character under the
      cursor to the held text. */
  lemma MoveForwardAddsOneChar(lx: LexerState, skip: bool)
    requires MoveForward(lx, skip).Ok?
    ensures Lookahead(lx).Ok? && Lookahead(lx).value.Plain? && |Lookahead(lx).value.s| == 1
    ensures multiset(Held(MoveForward(lx, skip).value)) == multiset(Held(lx)) + multiset(Lookahead(lx).value.s)
  {
  }

  /** Because the cursor stays put, a second `move_forward(False)` reads the
      same character again. */
  lemma MoveForwardRereads(lx: LexerState)
    requires MoveForward(lx, false).Ok?
    ensures MoveForward(MoveForward(lx, false).value, false).Ok?
    ensures var c := Lookahead(lx).value.s;
      MoveForward(MoveForward(lx, false).value, false).value.lxm.text == lx.lxm.text + c + c
  {
    var l1 := MoveForward(lx, false).value;
    assert l1.crsr == lx.crsr && l1.srcBuf == lx.srcBuf;
    assert Lookahead(l1) == Lookahead(lx);
  }

  /** The `state` getter turns true once a character has been buffered and
      false again after `mark_end`. */
  lemma StateFlagFollowsBuffer(lx: LexerState, prot: Counter, t: string)
    requires CounterWf(prot)
    ensures MoveForward(lx, false).Ok? ==> StateFlag(MoveForward(lx, false).value)
    ensures MarkEnd(lx, prot, t).Ok? ==> !StateFlag(MarkEnd(lx, prot, t).value.lexer)
  {
  }

  // ---------------------------------------------------------------------------
  // Token positions

  /** A buffer opened at the cursor keeps that start while characters are
      read, since the cursor never moves; so any token emitted from it ends
      strictly before it starts. */
  lemma TokenEndPrecedesStart(lx: LexerState, prot: Counter, t: string)
    requires CounterWf(prot) && lx.lxm.start == Position(lx)
    requires MarkEnd(lx, prot, t).Ok?
    ensures Before(End(MarkEnd(lx, prot, t).value.token), Start(MarkEnd(lx, prot, t).value.token))
    ensures MarkEnd(lx, prot, t).value.lexer.lxm.start == Position(MarkEnd(lx, prot, t).value.lexer)
  {
    LastIsBefore(lx.crsr);
  }

  /** Reading characters keeps the buffer anchored at the cursor. */
  lemma MoveForwardKeepsAnchor(lx: LexerState, skip: bool)
    requires lx.lxm.start == Position(lx) && MoveForward(lx, skip).Ok?
    ensures MoveForward(lx, skip).value.lxm.start == Position(MoveForward(lx, skip).value)
  {
  }

  /** As written, a burn at a cursor that has not broken a line has already
      copied the pending text into the trash when it raises, so that text is
      held twice. */
  lemma BurnAsWrittenDuplicatesText(lx: LexerState, prot: Counter, flag: bool)
    requires CounterWf(prot) && lx.crsr.hist == [] && (flag || lx.trash != [])
    ensures BurnLxmPayloadAsWritten(lx, prot, flag).Raised?
    ensures BurnLxmPayloadAsWritten(lx, prot, flag).exc == ValueError
    ensures Held(BurnLxmPayloadAsWritten(lx, prot, flag).after) == Held(lx) + lx.lxm.text
  {
    TupleNeedsALineBreak(lx.crsr);
    var after := BurnLxmPayloadAsWritten(lx, prot, flag).after;
    assert Totrash(lx, lx.lxm.text, flag).Ok?;
    assert Concat(after.trash) == Concat(lx.trash) + lx.lxm.text;
  }

  /** As written, `mark_end` on a cursor that has moved along its first line
      appends the token and then raises, leaving its text in the buffer as
      well: the text is held twice and the next token repeats it. */
  lemma MarkEndAsWrittenKeepsTokenAndText(lx: LexerState, prot: Counter, t: string)
    requires CounterWf(prot) && lx.crsr.hist == [] && lx.crsr.col > 0
    ensures MarkEndAsWritten(lx, prot, t).Raised? && MarkEndAsWritten(lx, prot, t).exc == ValueError
    ensures MarkEndAsWritten(lx, prot, t).after.tokens == lx.tokens + [MarkEnd(lx, prot, t).value.token]
    ensures MarkEndAsWritten(lx, prot, t).after.lxm == lx.lxm
    ensures Held(MarkEndAsWritten(lx, prot, t).after) == Payloads(lx.tokens) + lx.lxm.text + Concat(lx.trash) + lx.lxm.text
  {
    TupleNeedsALineBreak(lx.crsr);
    PayloadsAppend(lx.tokens, MarkEnd(lx, prot, t).value.token);
  }

  /** As written, no lexer can be constructed: an empty source is refused
      and a non-empty one fails on `tuple` of the fresh cursor, whereas the
      intended constructor accepts every non-empty source. */
  lemma InitAsWrittenAlwaysRaises(src: Source, srcBuf: seq<PyStr>, prot: Counter)
    requires CounterWf(prot)
    ensures InitAsWritten(src, srcBuf, prot) == Err(ValueError)
    ensures Tuple(Origin) == Err(ValueError)
    ensures Init(src, srcBuf, prot).Ok? <==> !EmptySource(src)
  {
    TupleNeedsALineBreak(Origin);
  }

  // ---------------------------------------------------------------------------
  // Source buffer

  /** With the default `preprocess` the source buffer is empty, so the very
      first `lookahead` of a new lexer raises `IndexError`. */
  lemma DefaultPreprocessLeavesNothing(src: Source, xOffset: int, xCutoff: int, prot: Counter)
    requires CounterWf(prot) && !EmptySource(src)
    ensures Init(src, Preprocess(src, xOffset, xCutoff), prot).Ok?
    ensures Lookahead(Init(src, Preprocess(src, xOffset, xCutoff), prot).value.lexer) == Err(IndexError)
    ensures MoveForward(Init(src, Preprocess(src, xOffset, xCutoff), prot).value.lexer, false) == Err(IndexError)
    ensures InitAsWritten(src, Preprocess(src, xOffset, xCutoff), prot) == Err(ValueError)
  {
  }

  /** On a source buffer whose current line is `EOF`, the written
      `lookahead` raises `NameError`, whereas the intended one returns the
      marker and `move_forward` reports `EOFError`. */
  lemma LookaheadAsWrittenDiffers(lx: LexerState)
    requires lx.srcBuf == [Eof] && lx.crsr == Origin
    ensures LookaheadAsWritten(lx) == Err(NameError)
    ensures Lookahead(lx) == Ok(Eof)
    ensures MoveForward(lx, false) == Err(EOFError) && MoveForward(lx, true) == Err(EOFError)
  {
  }

  /** The intended `lookahead` only ever raises `IndexError`, and raises
      `NameError` exactly where the written one does not reach the test. */
  lemma LookaheadErrorsAgree(lx: LexerState)
    ensures CurrentLine(lx).Err? ==> LookaheadAsWritten(lx) == Lookahead(lx)
    ensures CurrentLine(lx).Ok? ==> LookaheadAsWritten(lx) == Err(NameError) && Lookahead(lx) != Err(NameError)
  {
  }
}

=== FILE: pycore.dfy ===
/** The few pieces of Python semantics the lexer relies on: exceptions as
    values, absolute value and list indexing with negative indices. */
module PyCore {

  datatype Option<+T> = None | Some(value: T)

  /** The exception classes the modelled code raises. */
  datatype Exc = ValueError | IndexError | TypeError | PermissionError | EOFError | NameError

  /** A call either returns a value or raises one of the exceptions above. */
  datatype Result<+T> = Ok(value: T) | Err(exc: Exc) {

    predicate IsFailure() {
      Err?
    }

    function PropagateFailure<U>(): Result<U>
      requires Err?
    {
      Err(exc)
    }

    function Extract(): T
      requires Ok?
    {
      value
    }
  }

  /** Python's `abs` on integers. */
  function Abs(x: int): (r: nat)
    ensures r == x || r == -x
  {
    if x < 0 then -x else x
  }

  /** Python's `s[i]` on a list or string: a negative index counts from the
      end, and any index outside `-|s| .. |s|-1` raises `IndexError`. */
  function Index<T>(s: seq<T>, i: int): (r: Result<T>)
    ensures r.Ok? <==> -|s| <= i < |s|
    ensures r.Err? ==> r.exc == IndexError
  {
    if 0 <= i < |s| then Ok(s[i])
    else if -|s| <= i < 0 then Ok(s[|s| + i])
    else Err(IndexError)
  }
}

=== FILE: sentinels.dfy ===
/** Strings as the source buffer holds them: plain text, or one of the three
    marker strings `EOS`, `EOF` and `NULL`, each an instance of its own `str`
    subclass with a custom `__eq__`. */
module Sentinels {

  datatype PyStr = Plain(s: string) | Eos | Eof | Null {

    /** `str(value)`: the marker classes keep a fixed text. */
    function Text(): string {
      match this
      case Plain(s) => s
      case Eos => ";"
      case Eof => "END OF FILE"
      case Null => "EMPTY STRING ELEMENT"
    }

    predicate IsMarker() {
      !Plain?
    }
  }

  /** `marker.__eq__(other)`: true for an instance of the same class, or for
      anything whose text is `";"`; the marker's own text does not count. */
  function MarkerEq(a: PyStr, other: PyStr): (r: bool)
    requires a.IsMarker()
    ensures r <==> other == a || other == Eos || other == Plain(";")
  {
    if a.Eos? && other.Eos? then true
    else if a.Eof? && other.Eof? then true
    else if a.Null? && other.Null? then true
    else other.Text() == ";"
  }

  /** The `==` operator. A marker on the left answers with its own `__eq__`;
      a marker on the right of a plain string is asked first because its
      class is a subclass of `str`; two plain strings compare by text. */
  function PyEq(a: PyStr, b: PyStr): (r: bool)
    ensures !a.IsMarker() && !b.IsMarker() ==> (r <==> a.s == b.s)
    ensures a.IsMarker() ==> r == MarkerEq(a, b)
    ensures !a.IsMarker() && b.IsMarker() ==> (r <==> a == Plain(";"))
  {
    if a.IsMarker() then MarkerEq(a, b)
    else if b.IsMarker() then MarkerEq(b, a)
    else a.s == b.s
  }

  /** The consequences of these equalities: a marker is not equal to its own
      text, `EOF` and `NULL` equal `";"` and `EOS`, and the relation between
      markers is not symmetric. */
  lemma MarkerEqualityQuirks()
    ensures !PyEq(Eof, Plain("END OF FILE")) && !PyEq(Plain("END OF FILE"), Eof)
    ensures !PyEq(Null, Plain("EMPTY STRING ELEMENT"))
    ensures PyEq(Eof, Plain(";")) && PyEq(Null, Plain(";")) && PyEq(Plain(";"), Eof)
    ensures PyEq(Eof, Eos) && !PyEq(Eos, Eof)
    ensures PyEq(Null, Eos) && !PyEq(Eos, Null)
    ensures !PyEq(Eof, Null) && !PyEq(Null, Eof)
  {
  }

  /** Every value is equal to itself under `==`. */
  lemma PyEqReflexive(a: PyStr)
    ensures PyEq(a, a)
  {
  }

  /** `EOS` is equal exactly to the values whose text is `";"`. */
  lemma EosEqualsItsText(b: PyStr)
    ensures PyEq(Eos, b) <==> b.Text() == ";"
  {
  }
}

=== FILE: tokens.dfy ===
/** `DcrToken`: a token type name, the (start, end) scope of its text, the
    identifier of the buffer it came from, and its payload. */
module Tokens {
  import opened PyCore
  import opened Cursors

  /** The `(start, end)` pair of a token. */
  datatype Scope = Scope(start: Point, end: Point)

  datatype Token = Token(ttype: string, scope: Scope, idx: int, payload: Option<string>)

  /** The constructor stores every argument as given (payload defaults to
      `None`). */
  function MakeToken(ttype: string, scope: (Point, Point), idx: int, payload: Option<string>): (t: Token)
    ensures t.ttype == ttype && t.idx == idx && t.payload == payload
    ensures Start(t) == scope.0 && End(t) == scope.1
  {
    Token(ttype, Scope(scope.0, scope.1), idx, payload)
  }

  function Start(t: Token): Point {
    t.scope.start
  }

  function End(t: Token): Point {
    t.scope.end
  }

  function ColEnd(t: Token): int {
    t.scope.end.1
  }

  function ColStart(t: Token): int {
    t.scope.start.1
  }

  function LStart(t: Token): int {
    t.scope.start.0
  }

  function LEnd(t: Token): int {
    t.scope.end.0
  }

  /** The row and column accessors are the parts of `start()` and `end()`. */
  lemma AccessorsSplitScope(t: Token)
    ensures Start(t) == (LStart(t), ColStart(t))
    ensures End(t) == (LEnd(t), ColEnd(t))
  {
  }

  /** Python's `range(lo, stop)` as a list. */
  function Range(lo: int, stop: int): (r: seq<int>)
    ensures |r| == if stop > lo then stop - lo else 0
    ensures forall i :: 0 <= i < |r| ==> r[i] == lo + i
    decreases stop - lo
  {
    if lo >= stop then [] else [lo] + Range(lo + 1, stop)
  }

  /** `lrange()`: every line from the first to the last, both included. */
  function LRange(t: Token): (r: seq<int>)
    ensures |r| == if LEnd(t) >= LStart(t) then LEnd(t) - LStart(t) + 1 else 0
    ensures forall i :: 0 <= i < |r| ==> r[i] == LStart(t) + i
  {
    Range(LStart(t), LEnd(t) + 1)
  }

  /** A line belongs to `lrange()` exactly when it lies between the start and
      end lines. */
  lemma LRangeMembership(t: Token, line: int)
    ensures line in LRange(t) <==> LStart(t) <= line <= LEnd(t)
  {
    var r := LRange(t);
    if LStart(t) <= line <= LEnd(t) {
      assert r[line - LStart(t)] == line;
    }
  }
}
